=== FILE: README.md ===
# Verified model of five small course components

This project models, in Dafny, five self-contained pieces of a Python
repository and proves what they compute:

- **Integer matrices** (`Classes/Matrix.py`). The `Matrix` class builds a
  matrix from a flat row-major list, with dimension checks. It supports:
  - indexing, with one wrap-around for negative indices;
  - structural equality, addition, transposition and multiplication,
    each with shape checks;
  - the text rendering produced by `__str__`.

  Files: `matrix.dfy` (module `Matrices`) and `matrix_text.dfy` (module
  `MatrixText`).
- **HTML tag checker** (`Stack/Stack.py`).
  - `extract_tags` scans the text. It skips `<!-- ... -->` comments and
    keeps the first word of each `<...>`, with trailing slashes removed.
  - `parseHTML` matches opening and closing tags with a stack and ignores
    void elements.

  Files: `html_tags.dfy` (module `HtmlTags`) and `tag_matching.dfy` (module
  `TagBalance`).
- **Two-sum** (`Hashing/hashing.py`). Three procedures decide whether two
  entries at distinct positions sum to `k`:
  - a quadratic scan;
  - a dictionary of the values seen so far;
  - a list of `k + 1` flags indexed by value.

  File: `two_sum.dfy` (module `TwoSum`).
- **Summary statistics** (`Debugging/debug.py`, `computeStats`): the sum,
  maximum and minimum of a list, and all zeros for an empty list.
  File: `stats.dfy` (module `Stats`).
- **Random permutation** (`Permutation/permutation.py`,
  `randomPermutation`). It draws unused positions of a word until none is
  left. File: `permutation.dfy` (module `Permutation`).

`outcomes.dfy` (module `Outcomes`) holds the shared `Result` and `Option`
types. The Python exceptions `ValueError` and `IndexError` become
`Err(ValueError)` and `Err(IndexError)`.

Modelling choices:

- **Matrices.** A matrix is an immutable `Matrix(numRows, numCols, rows)`.
  - The predicate `Valid` states the class invariant: positive dimensions,
    and `numRows` rows of `numCols` entries each.
  - `Add`, `Transpose` and `Mul` build a flat row-major list and go back
    through the constructor `New`, as the source does.
- **Rendering.** `__str__` is modelled character by character:
  - Python's `str(int)` becomes `IntToString`, without CPython's limit
    on the number of digits (see "Left out").
  - The right-justified field `{x:>w}` becomes `PadLeft`.
  - Rows are framed by `"|  "` and `"  |"` and joined with `"\n"`.

  The method's docstring says rows start with `"| "` and end with `" |"`,
  but the code writes two spaces on each side. The model follows the code.
- **Tag scanner.** The index-based scanner loop is written as recursion on
  the unread suffix of the text. Its whitespace is exactly the set
  recognised by Python's `str.isspace`, which `str.split()` uses.
  - A tag holding only whitespace, such as `<>` or `< >`, makes
    `.split()[0]` raise `IndexError`. The model returns `Err(IndexError)`,
    and `ParseHtml` propagates it.
  - The emitted tag may be empty: `</>` gives the tag `""`.
  - The void check is made on the whole tag, so `</br>` is a closing tag
    named `br`.
- **Two-sum flag list.** `findOperandsList2` is modelled exactly as
  written, for every `k` whose flag list can be allocated.
  - For a negative entry `num` with `num >= -(k+1)`, `seen[num] = True`
    sets `seen[num + k + 1]` through Python's negative indexing.
  - A more negative entry raises `IndexError`.

  Its docstring asks for non-negative entries. On such lists it agrees with
  the other two procedures (`AgreeOnNaturals`). `NegativeEntryAliases`
  exhibits the aliasing outside that precondition: for `[-1, 0]` and
  `k = 5` it answers True.
- **Permutation.** `random.choice` becomes the nondeterministic choice
  `idx :| idx in available`. Every property is proved for every sequence
  of choices.

All data are immutable Dafny values, so "the input is not modified" holds
by construction.

## Model

| member | source | states |
|---|---|---|
| Matrices.New | Classes/Matrix.py:26-31 | Construction succeeds exactly when rows > 0, cols > 0, data is given and its length is rows × cols. It raises ValueError otherwise. The result is a valid matrix of those dimensions whose rows, concatenated, are the data. |
| Matrices.FromData | Classes/Matrix.py:42-53 | ValueError exactly when `len(data) != rows*cols`. Otherwise there are `rows` rows of `cols` entries, and entry (r, c) is `data[r*cols + c]`. |
| Matrices.NewOfConcat | Classes/Matrix.py:45-53 | Flattening the rows of a well-shaped grid and constructing from that list gives back exactly that grid. This is the inverse direction of the row-major layout. |
| Matrices.GetAfterNew | Classes/Matrix.py:45-53 | After construction, indexing at (r, c) returns `data[r*cols + c]`. |
| Matrices.NumRows | Classes/Matrix.py:78-85 | The row count is positive and equals the number of stored rows. |
| Matrices.NumCols | Classes/Matrix.py:87-94 | The column count is positive and equals the length of every stored row. |
| Matrices.Get | Classes/Matrix.py:145-154 | The index succeeds exactly on `[-rows, rows) × [-cols, cols)` and raises IndexError elsewhere. A non-negative in-range index returns the stored entry. |
| Matrices.NegativeIndexWraps | Classes/Matrix.py:145-148 | A negative index reads the same entry as that index plus the dimension, on either axis or both. |
| Matrices.Equal | Classes/Matrix.py:169 | Equality holds iff both dimensions and all entries agree. That is exactly structural identity of the two matrices. |
| Matrices.SameEntries | Classes/Matrix.py:169 | Two valid matrices with equal dimensions and equal entries are the same matrix. |
| Matrices.Add | Classes/Matrix.py:185-193 | ValueError exactly on a shape mismatch. Otherwise the result has the same shape and `result[r][c] = a[r][c] + b[r][c]`. |
| Matrices.AddCommutes | Classes/Matrix.py:185-193 | `a + b` and `b + a` give the same outcome, including the same error. |
| Matrices.Transpose | Classes/Matrix.py:202-207 | The dimensions are swapped and `result[c][r] = m[r][c]`. |
| Matrices.TransposeTwice | Classes/Matrix.py:202-207 | Transposing twice gives back the original matrix, and `__eq__` reports them equal. |
| Matrices.Mul | Classes/Matrix.py:220-232 | ValueError exactly when `a.cols != b.rows`. Otherwise the result is `a.rows × b.cols` with `result[i][j] = Σ_k a[i][k] * b[k][j]`. |
| Matrices.MulTranspose | Classes/Matrix.py:202-232 | The transpose of `a * b` is `transpose(b) * transpose(a)`. |
| Matrices.MulDistributesOverAdd | Classes/Matrix.py:185-232 | `a * (b + c) = a * b + a * c` whenever the shapes fit, and none of the three operations raises. |
| MatrixText.Render | Classes/Matrix.py:112-126 | The text is the printed rows joined by `"\n"` with none after the last: splitting it at newlines gives exactly one framed row per matrix row. |
| MatrixText.IntToString | Classes/Matrix.py:117 | `str` of an integer is an optional minus sign, present exactly for negative numbers, followed by digits, with no newline and no leading space. |
| MatrixText.PadLeft | Classes/Matrix.py:123 | A right-justified field is w characters long, or the text's own length when the text is longer. |
| MatrixText.IntRoundTrip | Classes/Matrix.py:117 | The decimal text of every integer, as `str` writes it, parses back to that integer. |
| MatrixText.WidthFits | Classes/Matrix.py:113-117 | The field width is at least the length of every entry's decimal text. |
| MatrixText.WidthAttained | Classes/Matrix.py:113-117 | Some entry's decimal text is exactly as long as the field width, so the width is the maximum. |
| MatrixText.TrimPadLeft | Classes/Matrix.py:123 | Right-justifying a text that does not start with a space and then removing the leading spaces gives back the text. |
| MatrixText.PadLeftContent | Classes/Matrix.py:123 | A right-justified field is spaces followed by the original text. |
| MatrixText.SplitJoin | Classes/Matrix.py:126 | Joining one or more newline-free lines with `"\n"` and splitting at `"\n"` gives back the lines. |
| MatrixText.RowLength | Classes/Matrix.py:124 | Every printed row starts with `"|  "`, ends with `"  |"` and has length `6 + cols*w + 2*(cols-1)`. |
| MatrixText.RowField | Classes/Matrix.py:120-124 | Field j of row i, at offset `3 + j*(w+2)`, is the entry's decimal text right-justified to width w. |
| MatrixText.RenderField | Classes/Matrix.py:119-126 | Line i of the rendered text exists, and its field j, at offset `3 + j*(w+2)`, is entry (i, j) right-justified to width w. |
| MatrixText.DecodeField | Classes/Matrix.py:117-123 | A right-justified decimal field, with its leading spaces removed, is a decimal numeral that parses back to the entry. |
| MatrixText.RenderDecodes | Classes/Matrix.py:112-126 | Reading field (i, j) of the rendered text back, by trimming and parsing it, yields entry (i, j). |
| HtmlTags.ExtractTags | Stack/Stack.py:25-49 | The scan fails only with IndexError. Every emitted tag contains no whitespace and does not end with `/`. |
| HtmlTags.CommentSkipped | Stack/Stack.py:30-35 | For a body with no `-->` in it, `<!--` body `-->` contributes no tags, and the scan resumes after the `-->`. |
| HtmlTags.UnterminatedComment | Stack/Stack.py:30-35 | A `<!--` with no later `-->` emits nothing and ends the scan. |
| HtmlTags.TagEmitted | Stack/Stack.py:37-45 | For an `inner` that contains no `>` and does not begin with `!--`, `<inner>` emits the first word of `inner` with its trailing slashes stripped, then the scan resumes after `>`. An all-whitespace `inner` raises IndexError. |
| HtmlTags.FirstWordOf | Stack/Stack.py:42 | For an all-whitespace `lead`, a non-empty `word` without whitespace, and a `tail` that is empty or starts with whitespace, the first whitespace-separated word of `lead + word + tail` is `word`. |
| HtmlTags.StripSlashesOf | Stack/Stack.py:43 | For a `name` that does not end with `/`, stripping the trailing slashes from `name` followed by any run of slashes gives `name`. |
| HtmlTags.UnclosedEndsScan | Stack/Stack.py:39-45 | A `<` with no later `>` emits nothing and ends the scan. |
| HtmlTags.NoOpenNoTags | Stack/Stack.py:37-47 | Text without `<` yields no tags. |
| HtmlTags.PlainSkipped | Stack/Stack.py:46-47 | Characters before the next `<` are passed over: the text scans the same as what follows them. |
| HtmlTags.SingleTag | Stack/Stack.py:37-45 | A tag that is one word, has no trailing slash and does not begin with `!--` is emitted as it is, ahead of the tags after it. |
| HtmlTags.TagAfterText | Stack/Stack.py:25-49 | After plain text, the next tag that is one word, has no trailing slash and does not begin with `!--` is emitted ahead of the tags of the rest of the text. |
| TagBalance.VoidTagsIgnored | Stack/Stack.py:64-74 | Inserting a void element anywhere in the tag list leaves the matcher's token sequence unchanged. |
| TagBalance.StackHoldsOpenTags | Stack/Stack.py:72-90 | After any prefix the matcher has not rejected, the stack holds exactly the tags that prefix leaves open, oldest first. |
| TagBalance.OpenTagsStack | Stack/Stack.py:72-90 | Conversely, a prefix that leaves a given list of tags open drives the matcher to exactly that stack. |
| TagBalance.OpenPushes | Stack/Stack.py:76-77 | An opening tag after a prefix pushes its name on top of the tags that prefix leaves open. |
| TagBalance.ClosePops | Stack/Stack.py:83-90 | A closing tag that matches the newest open name closes exactly that name and leaves the older ones open. |
| TagBalance.BalancedRuns | Stack/Stack.py:76-90 | A well-nested token sequence leaves any stack unchanged. |
| TagBalance.AcceptsBalanced | Stack/Stack.py:72-97 | The loop ends with an empty stack exactly when the token sequence is well nested. |
| TagBalance.UnmatchedCloseRejects | Stack/Stack.py:79-90 | A closing tag that meets an empty stack, or a top of a different name, makes the input ill nested whatever follows. |
| TagBalance.RejectionIsFinal | Stack/Stack.py:80-90 | Once the matcher has returned False, no continuation of the input is well nested. |
| TagBalance.LeftoverRejects | Stack/Stack.py:92-95 | Tags still open at the end make the input ill nested. |
| TagBalance.ParseTags | Stack/Stack.py:64-97 | The stack loop returns True exactly when the non-void tags are well nested. |
| TagBalance.ParseHtml | Stack/Stack.py:51-97 | IndexError exactly when the scanner raises it. Otherwise True iff the extracted non-void tags are well nested. |
| TwoSum.FindOperandsList1 | Hashing/hashing.py:15-19 | True iff some positions i < j have `s[i] + s[j] == k`. |
| TwoSum.FindOperandsDict | Hashing/hashing.py:31-36 | True iff some positions i < j have `s[i] + s[j] == k`. When an element is examined, `seen` holds exactly the earlier values. |
| TwoSum.FindOperandsList2 | Hashing/hashing.py:49-58 | ValueError exactly when k < 0. IndexError when the scan reaches an entry below `-(k+1)` without having answered True. Otherwise True iff a later entry in `[0, k]` has an earlier partner summing to k, or to -1 through negative indexing. |
| TwoSum.ScanOutcome | Hashing/hashing.py:52-58 | From any state the loop can reach without answering, with `seen` flagging exactly the values the earlier entries mark, the rest of the scan yields True, IndexError or False as described for FindOperandsList2. |
| TwoSum.FlagsStep | Hashing/hashing.py:56-57 | After the store for an entry not below `-(k+1)`, flag v is set exactly when v is the value, or the value plus k+1, of one of the entries so far. |
| TwoSum.ListTwoHitIsPairSum | Hashing/hashing.py:52-57 | On non-negative entries and k ≥ 0, no IndexError occurs and the flag list's answer is exactly the two-sum answer. |
| TwoSum.AgreeOnNaturals | Hashing/hashing.py:5-58 | On non-negative entries and k ≥ 0 the three procedures return the same answer, and the flag list raises nothing. |
| TwoSum.NegativeEntryAliases | Hashing/hashing.py:56-57 | With entries `[-1, 0]` and k = 5 the flag list answers True though no pair sums to 5. |
| TwoSum.TestCalls | Hashing/hashing.py:63-76 | Each of the three procedures answers True, False, True on the test inputs `[1, 2, 3, 4]` with 5, `[1, 2]` with 4 and `[5, 5]` with 10, and the flag list raises nothing. |
| TwoSum.PairsNeedTwoPositions | Hashing/hashing.py:64-66 | `[5]` with k = 10 has no pair, `[5, 5]` with 10 and `[1, 2, 3, 4]` with 5 do, and `[1, 2]` with 4 does not. |
| Stats.ComputeStats | Debugging/debug.py:33-48 | An empty list gives sum, max and min all 0. Otherwise sum is the total, max is an element ≥ every element, and min is an element ≤ every element. |
| Stats.SumBetweenBounds | Debugging/debug.py:38-48 | The total lies between `n*min` and `n*max` for any lower and upper bounds of the elements. |
| Permutation.RandomPermutation | Permutation/permutation.py:3-23 | Whatever positions are drawn, the result has the input's length and character multiset. It is the input read in an order that uses every position exactly once. The empty word maps to the empty word. |
| Permutation.RearrangedSameLetters | Permutation/permutation.py:16-22 | Any reading of a word that uses every position exactly once has the same characters as the word. |
| Permutation.Positions | Permutation/permutation.py:16 | The initial set of available positions is exactly `0 .. n-1` and has n elements. |

## Left out

- File and command-line I/O is not modelled: `Matrix._init_from_file`, `readFile`, `readWords`, `writePermutedWords`, `readIntegers` and every `main`. It only moves text between files and the functions modelled here.
- The `avg` field of `computeStats` is not modelled. It is floating-point division rounded to two places.
- The expected outputs for fixed random seeds in `Permutation/permutation.py` are not modelled. They depend on CPython's Mersenne Twister.
- The `print` diagnostics of `parseHTML` are not modelled. This includes the `last_open in stack._data` test, which only chooses between two messages; both branches return False.
- The `TypeError` branches of `__getitem__`, `__eq__`, `__add__` and `__mul__` are not modelled. The typed model cannot pass a non-matrix or a non-integer index.
- The `Stack` class that `parseHTML` uses comes from a separate module and is backed by a Python list whose end is the top. It is modelled as a sequence whose last element is the top.
- Matrices.FromData: requires positive dimensions. In the source it is only called from `__init__` after that check.
- TwoSum.FindOperandsList2: the model assumes the `k + 1` flags can be allocated. For a `k + 1` above `sys.maxsize`, `[False] * (k + 1)` raises OverflowError, and a list too large for memory raises MemoryError; the model answers for every `k >= 0`.
- MatrixText.Render: entries of any size are written out. CPython's `str` and format refuse integers of more than 4300 digits (the default `int_max_str_digits`) with ValueError, so `__str__` raises where the model returns text.
- Stats.ComputeStats: the model returns a summary for every list of integers. The source also computes `avg` as a float, which raises OverflowError when the mean lies outside the float range (for example `[10**400]`); inputs read by `readIntegers` pass through `float()` and cannot reach this.
- Stats.ComputeStats: entries are integers. The source's annotation says `list[float]`, but its input comes from `readIntegers`, which keeps only integral values.

=== FILE: html_tags.dfy ===
/**
 * The tag scanner of the HTML checker (Stack/Stack.py, extract_tags).
 *
 * The scanner walks the text once. A `<!--` opens a comment that is
 * skipped up to the next `-->`; a `<` opens a tag that runs to the next
 * `>`, whose first whitespace-separated word, with trailing slashes
 * removed, is emitted; every other character is skipped. The index-based
 * loop of the source is written here as recursion on the unread suffix.
 */
module HtmlTags {
  import opened Outcomes

  /** The characters Python's `str.split()` treats as whitespace (`str.isspace`). */
  predicate IsSpace(c: char) {
    c == ' ' || '\t' <= c <= '\r' || '\U{1c}' <= c <= '\U{1f}'
    || c == '\U{85}' || c == '\U{a0}' || c == '\U{1680}'
    || '\U{2000}' <= c <= '\U{200a}' || c == '\U{2028}' || c == '\U{2029}'
    || c == '\U{202f}' || c == '\U{205f}' || c == '\U{3000}'
  }

  predicate AllSpace(s: string) {
    forall k :: 0 <= k < |s| ==> IsSpace(s[k])
  }

  predicate NoSpace(s: string) {
    forall k :: 0 <= k < |s| ==> !IsSpace(s[k])
  }

  predicate AllSlashes(s: string) {
    forall k :: 0 <= k < |s| ==> s[k] == '/'
  }

  predicate EndsWithSlash(s: string) {
    |s| > 0 && s[|s| - 1] == '/'
  }

  /** What the scanner can emit: one word, never ending in a slash. */
  predicate WellFormedTag(t: string) {
    NoSpace(t) && !EndsWithSlash(t)
  }

  /** `s` has the comment terminator `-->` starting at position `q`. */
  predicate EndsAt(s: string, q: int) {
    0 <= q && q + 3 <= |s| && s[q] == '-' && s[q + 1] == '-' && s[q + 2] == '>'
  }

  predicate HasCommentEnd(s: string) {
    exists q :: 0 <= q < |s| && EndsAt(s, q)
  }

  predicate StartsComment(s: string) {
    |s| >= 4 && s[..4] == "<!--"
  }

  /** The position of the first `-->` in `s`, if there is one. */
  function FindCommentEnd(s: string): (r: Option<nat>)
    ensures r.None? <==> !HasCommentEnd(s)
    ensures r.Some? ==> EndsAt(s, r.value) && forall p :: 0 <= p < r.value ==> !EndsAt(s, p)
  {
    if |s| < 3 then None
    else if EndsAt(s, 0) then Some(0)
    else
      match FindCommentEnd(s[1..])
      case None =>
        assert forall q :: EndsAt(s, q) ==> q == 0 || EndsAt(s[1..], q - 1);
        None
      case Some(q) =>
        assert forall p :: 1 <= p < q + 1 ==> EndsAt(s, p) == EndsAt(s[1..], p - 1);
        assert EndsAt(s, q + 1);
        Some(q + 1)
  }

  /** The position of the first `>` in `s`, if there is one. */
  function FindClose(s: string): (r: Option<nat>)
    ensures r.None? <==> '>' !in s
    ensures r.Some? ==> r.value < |s| && s[r.value] == '>' && '>' !in s[..r.value]
  {
    if |s| == 0 then None
    else if s[0] == '>' then Some(0)
    else
      match FindClose(s[1..])
      case None => None
      case Some(j) =>
        assert s[..j + 1] == [s[0]] + s[1..][..j];
        Some(j + 1)
  }

  /** The leading run of non-whitespace characters of `s`. */
  function Word(s: string): (w: string)
    ensures |w| <= |s| && w == s[..|w|] && NoSpace(w)
    ensures |w| == |s| || IsSpace(s[|w|])
  {
    if |s| == 0 || IsSpace(s[0]) then ""
    else [s[0]] + Word(s[1..])
  }

  /** `s.split()[0]`: the first whitespace-separated word, or None when `s` has none. */
  function FirstWord(s: string): (r: Option<string>)
    ensures r.None? <==> AllSpace(s)
    ensures r.Some? ==> |r.value| > 0 && NoSpace(r.value)
  {
    if |s| == 0 then None
    else if IsSpace(s[0]) then
      assert forall k :: 1 <= k < |s| ==> s[k] == s[1..][k - 1];
      FirstWord(s[1..])
    else Some(Word(s))
  }

  /** `t.rstrip('/')`. */
  function StripSlashes(t: string): (r: string)
    ensures |r| <= |t| && r == t[..|r|] && AllSlashes(t[|r|..])
    ensures !EndsWithSlash(r)
  {
    if |t| == 0 || t[|t| - 1] != '/' then t
    else StripSlashes(t[..|t| - 1])
  }

  /** Puts one tag in front of the tags scanned after it, keeping an error. */
  function Prepend(t: string, rest: Result<seq<string>>): Result<seq<string>> {
    if rest.Err? then rest else Ok([t] + rest.value)
  }

  /**
   * extract_tags: the tags of `html` in order, or IndexError when some
   * `<...>` holds only whitespace (`.split()[0]` on an empty list).
   */
  function ExtractTags(html: string): (r: Result<seq<string>>)
    ensures r.Err? ==> r.error == IndexError
    ensures r.Ok? ==> forall t :: t in r.value ==> WellFormedTag(t)
    decreases |html|
  {
    if |html| == 0 then Ok([])
    else if StartsComment(html) then
      match FindCommentEnd(html[4..])
      case None => Ok([])
      case Some(q) => ExtractTags(html[4 + q + 3..])
    else if html[0] == '<' then
      match FindClose(html[1..])
      case None => Ok([])
      case Some(j) =>
        match FirstWord(html[1..1 + j])
        case None => Err(IndexError)
        case Some(w) => Prepend(StripSlashes(w), ExtractTags(html[j + 2..]))
    else ExtractTags(html[1..])
  }

  /** The first word of `lead + word + tail` is `word` when `lead` is blank and `tail` does not continue it. */
  lemma {:induction false} FirstWordOf(lead: string, word: string, tail: string)
    requires AllSpace(lead) && |word| > 0 && NoSpace(word)
    requires |tail| == 0 || IsSpace(tail[0])
    ensures FirstWord(lead + word + tail) == Some(word)
    decreases |lead|
  {
    var s := lead + word + tail;
    if |lead| == 0 {
      assert s == word + tail;
      WordOf(word, tail);
    } else {
      assert s[1..] == lead[1..] + word + tail;
      FirstWordOf(lead[1..], word, tail);
    }
  }

  lemma {:induction false} WordOf(word: string, tail: string)
    requires NoSpace(word)
    requires |tail| == 0 || IsSpace(tail[0])
    ensures Word(word + tail) == word
    decreases |word|
  {
    if |word| == 0 {
      assert word + tail == tail;
    } else {
      assert (word + tail)[1..] == word[1..] + tail;
      WordOf(word[1..], tail);
    }
  }

  /** Stripping removes exactly the trailing slashes. */
  lemma {:induction false} StripSlashesOf(name: string, slashes: string)
    requires !EndsWithSlash(name) && AllSlashes(slashes)
    ensures StripSlashes(name + slashes) == name
    decreases |slashes|
  {
    if |slashes| == 0 {
      assert name + slashes == name;
    } else {
      var t := name + slashes;
      assert t[..|t| - 1] == name + slashes[..|slashes| - 1];
      StripSlashesOf(name, slashes[..|slashes| - 1]);
    }
  }

  /** A comment, whatever it holds up to its first `-->`, contributes no tags. */
  lemma CommentSkipped(body: string, rest: string)
    requires !HasCommentEnd(body)
    ensures ExtractTags("<!--" + body + "-->" + rest) == ExtractTags(rest)
  {
    var html := "<!--" + body + "-->" + rest;
    var s := body + "-->" + rest;
    assert html[..4] == "<!--" && html[4..] == s;
    assert EndsAt(s, |body|);
    forall p | 0 <= p < |body|
      ensures !EndsAt(s, p)
    {
      if p + 3 <= |body| {
        assert !EndsAt(body, p);
        assert s[p] == body[p] && s[p + 1] == body[p + 1] && s[p + 2] == body[p + 2];
      } else {
        assert s[p + 2] == '-';
      }
    }
    assert FindCommentEnd(s) == Some(|body|);
    assert html[4 + |body| + 3..] == rest;
  }

  /** A comment that is never closed swallows the rest of the text. */
  lemma UnterminatedComment(body: string)
    requires !HasCommentEnd(body)
    ensures ExtractTags("<!--" + body) == Ok([])
  {
    var html := "<!--" + body;
    assert html[..4] == "<!--" && html[4..] == body;
  }

  /** A character other than `<` is passed over. */
  lemma PlainStep(html: string)
    requires |html| > 0 && html[0] != '<'
    ensures ExtractTags(html) == ExtractTags(html[1..])
  {
    assert !StartsComment(html) by {
      if |html| >= 4 {
        assert html[..4][0] == html[0];
      }
    }
  }

  /** Characters before the next `<` are passed over without emitting anything. */
  lemma {:induction false} PlainSkipped(plain: string, rest: string)
    requires '<' !in plain
    ensures ExtractTags(plain + rest) == ExtractTags(rest)
    decreases |plain|
  {
    if |plain| == 0 {
      assert plain + rest == rest;
    } else {
      var html := plain + rest;
      assert html[0] == plain[0];
      assert html[1..] == plain[1..] + rest;
      PlainStep(html);
      PlainSkipped(plain[1..], rest);
    }
  }

  /** Text without `<` holds no tags. */
  lemma {:induction false} NoOpenNoTags(s: string)
    requires '<' !in s
    ensures ExtractTags(s) == Ok([])
    decreases |s|
  {
    if |s| > 0 {
      assert s[0] != '<';
      NoOpenNoTags(s[1..]);
    }
  }

  /** A `<` with no later `>` emits nothing and ends the scan. */
  lemma UnclosedEndsScan(s: string)
    requires '>' !in s
    ensures ExtractTags("<" + s) == Ok([])
  {
    var html := "<" + s;
    assert html[1..] == s;
    if StartsComment(html) {
      var c := html[4..];
      forall q | 0 <= q < |c|
        ensures !EndsAt(c, q)
      {
        if q + 2 < |c| {
          assert c[q + 2] == s[q + 5];
        }
      }
    }
  }

  /** A `<` that does not open `<!--` is read as a tag up to the first `>`. */
  lemma ScanTag(html: string, inner: string, rest: string)
    requires |html| > 0 && html[0] == '<' && !StartsComment(html)
    requires FindClose(html[1..]) == Some(|inner|)
    requires |inner| + 2 <= |html| && html[1..1 + |inner|] == inner && html[|inner| + 2..] == rest
    ensures AllSpace(inner) ==> ExtractTags(html) == Err(IndexError)
    ensures !AllSpace(inner) ==> ExtractTags(html) == Prepend(StripSlashes(FirstWord(inner).value), ExtractTags(rest))
  {
  }

  /** `<inner>` does not open a comment when `inner` does not start with `!--`. */
  lemma TagNotComment(inner: string, rest: string)
    requires '>' !in inner
    requires !(|inner| >= 3 && inner[..3] == "!--")
    ensures !StartsComment("<" + inner + ">" + rest)
  {
    var html := "<" + inner + ">" + rest;
    if |inner| >= 3 {
      assert html[1] == inner[0] && html[2] == inner[1] && html[3] == inner[2];
      assert inner[..3] == [inner[0], inner[1], inner[2]];
    } else {
      assert html[|inner| + 1] == '>';
    }
  }

  /** The first `>` after `<inner` is the one that closes it. */
  lemma CloseOfTag(inner: string, rest: string)
    requires '>' !in inner
    ensures FindClose(inner + ">" + rest) == Some(|inner|)
  {
    var s := inner + ">" + rest;
    assert s[..|inner|] == inner;
    assert s[|inner|] == '>';
  }

  /**
   * A tag `<inner>` emits the first word of `inner` with its trailing
   * slashes removed, then scanning resumes after the `>`; a blank `inner`
   * is an IndexError.
   */
  lemma TagEmitted(inner: string, rest: string)
    requires '>' !in inner
    requires !(|inner| >= 3 && inner[..3] == "!--")
    ensures AllSpace(inner) ==> ExtractTags("<" + inner + ">" + rest) == Err(IndexError)
    ensures !AllSpace(inner) ==>
      ExtractTags("<" + inner + ">" + rest)
      == Prepend(StripSlashes(FirstWord(inner).value), ExtractTags(rest))
  {
    var html := "<" + inner + ">" + rest;
    assert html[1..] == inner + ">" + rest;
    TagNotComment(inner, rest);
    CloseOfTag(inner, rest);
    assert html[1..1 + |inner|] == inner;
    assert html[|inner| + 2..] == rest;
    ScanTag(html, inner, rest);
  }

  /** A word with no whitespace and no trailing slash is its own tag. */
  lemma WholeTag(w: string)
    requires |w| > 0 && NoSpace(w) && !EndsWithSlash(w)
    ensures FirstWord(w) == Some(w) && StripSlashes(w) == w
  {
    assert "" + w + "" == w && w + "" == w;
    FirstWordOf("", w, "");
    StripSlashesOf(w, "");
  }

  /** A tag that is a single word emits exactly that word. */
  lemma SingleTag(w: string, rest: string)
    requires |w| > 0 && NoSpace(w) && !EndsWithSlash(w) && '>' !in w
    requires !(|w| >= 3 && w[..3] == "!--")
    ensures ExtractTags("<" + w + ">" + rest) == Prepend(w, ExtractTags(rest))
  {
    WholeTag(w);
    TagEmitted(w, rest);
  }

  /** Regrouping the text around a tag, kept apart so the scan proofs stay small. */
  lemma TagConcat(plain: string, w: string, rest: string)
    ensures plain + "<" + w + ">" + rest == plain + ("<" + w + ">" + rest)
  {
  }

  /**
   * The case lemmas compose over a whole text: after plain text, the next
   * tag is emitted ahead of the tags of everything after it.
   */
  lemma TagAfterText(plain: string, w: string, rest: string)
    requires '<' !in plain
    requires |w| > 0 && NoSpace(w) && !EndsWithSlash(w) && '>' !in w
    requires !(|w| >= 3 && w[..3] == "!--")
    ensures ExtractTags(plain + "<" + w + ">" + rest) == Prepend(w, ExtractTags(rest))
  {
    var tag := "<" + w + ">" + rest;
    TagConcat(plain, w, rest);
    PlainSkipped(plain, tag);
    SingleTag(w, rest);
  }
}

=== FILE: matrix.dfy ===
/** The integer matrix of `Classes/Matrix.py`.

    A matrix keeps its row count, its column count and its entries as a
    list of rows. Every matrix built from data has at least one row and
    one column, and every row has `numCols` entries (`Valid`). Addition,
    transposition and multiplication build a flat row-major list and go
    back through the constructor, as the Python code does. */
module Matrices {
  import opened Outcomes

  datatype Matrix = Matrix(numRows: int, numCols: int, rows: seq<seq<int>>)

  /** Every row of `rows` has exactly `n` entries. */
  ghost predicate Shaped<T>(rows: seq<seq<T>>, n: int) {
    forall r :: 0 <= r < |rows| ==> |rows[r]| == n
  }

  /** The invariant that construction from data establishes. */
  ghost predicate Valid(m: Matrix) {
    && m.numRows > 0
    && m.numCols > 0
    && |m.rows| == m.numRows
    && Shaped(m.rows, m.numCols)
  }

  /** The rows laid end to end: the row-major flat list. */
  function Concat<T>(rows: seq<seq<T>>): seq<T> {
    if |rows| == 0 then [] else rows[0] + Concat(rows[1..])
  }

  lemma {:induction false} ConcatLength<T>(rows: seq<seq<T>>, n: nat)
    requires Shaped(rows, n)
    ensures |Concat(rows)| == |rows| * n
  {
    if |rows| > 0 {
      ConcatLength(rows[1..], n);
      assert |rows| * n == n + (|rows| - 1) * n;
    }
  }

  /** Entry `(i, j)` of uniformly shaped rows sits at offset `p == i * n + j` of the flat list. */
  lemma {:induction false} ConcatOffset<T>(rows: seq<seq<T>>, n: nat, i: int, j: int, p: int)
    requires Shaped(rows, n)
    requires 0 <= i < |rows| && 0 <= j < n && p == i * n + j
    ensures 0 <= p < |Concat(rows)|
    ensures Concat(rows)[p] == rows[i][j]
    decreases i
  {
    assert Concat(rows) == rows[0] + Concat(rows[1..]);
    if i > 0 {
      assert (i - 1) * n == i * n - n;
      ConcatOffset(rows[1..], n, i - 1, j, p - n);
    }
  }

  lemma ConcatIndex<T>(rows: seq<seq<T>>, n: nat, i: int, j: int)
    requires Shaped(rows, n)
    requires 0 <= i < |rows| && 0 <= j < n
    ensures 0 <= i * n + j < |Concat(rows)|
    ensures Concat(rows)[i * n + j] == rows[i][j]
  {
    ConcatOffset(rows, n, i, j, i * n + j);
  }

  /** Uniformly shaped rows are determined by their flat list. */
  lemma {:induction false} ConcatInjective<T>(xs: seq<seq<T>>, ys: seq<seq<T>>, n: nat)
    requires Shaped(xs, n) && Shaped(ys, n) && |xs| == |ys|
    requires Concat(xs) == Concat(ys)
    ensures xs == ys
  {
    if |xs| > 0 {
      assert xs[0] == Concat(xs)[..n] == Concat(ys)[..n] == ys[0];
      assert Concat(xs[1..]) == Concat(xs)[n..] == Concat(ys)[n..] == Concat(ys[1..]);
      ConcatInjective(xs[1..], ys[1..], n);
      assert xs == [xs[0]] + xs[1..] && ys == [ys[0]] + ys[1..];
    }
  }

  /** A flat offset splits into a row (the quotient) and a column (the remainder). */
  lemma SplitOffset(p: int, numRows: int, numCols: int)
    requires numCols > 0 && 0 <= p < numRows * numCols
    ensures 0 <= p / numCols < numRows && 0 <= p % numCols < numCols
    ensures p == (p / numCols) * numCols + p % numCols
  {
    var i := p / numCols;
    assert i * numCols <= p;
    assert (numRows - i) * numCols > 0;
  }

  /** Entry `(i, j)` of `rows`, if it exists, is `data[i * numCols + j]`. */
  ghost predicate EntryAt(rows: seq<seq<int>>, data: seq<int>, numCols: int, i: int, j: int) {
    0 <= i < |rows| && 0 <= j < |rows[i]| ==>
      0 <= i * numCols + j < |data| && rows[i][j] == data[i * numCols + j]
  }

  /** `rows` is `data` laid out in row-major order. */
  ghost predicate RowMajor(rows: seq<seq<int>>, data: seq<int>, numCols: int) {
    forall i, j :: EntryAt(rows, data, numCols, i, j)
  }

  /** The flat list cut into `numRows` consecutive rows of `numCols` entries. */
  function Chunk(data: seq<int>, numRows: nat, numCols: nat): (rows: seq<seq<int>>)
    requires |data| == numRows * numCols
    ensures |rows| == numRows && Shaped(rows, numCols)
    decreases numRows
  {
    if numRows == 0 then []
    else
      assert |data| == numCols + (numRows - 1) * numCols;
      [data[..numCols]] + Chunk(data[numCols..], numRows - 1, numCols)
  }

  /** Chunking and flattening are inverse. */
  lemma {:induction false} FlattenChunk(data: seq<int>, numRows: nat, numCols: nat)
    requires |data| == numRows * numCols
    ensures Concat(Chunk(data, numRows, numCols)) == data
    decreases numRows
  {
    if numRows > 0 {
      assert |data| == numCols + (numRows - 1) * numCols;
      var rows := Chunk(data, numRows, numCols);
      var rest := data[numCols..];
      assert rows[1..] == Chunk(rest, numRows - 1, numCols);
      FlattenChunk(rest, numRows - 1, numCols);
      TakeDrop(data, numCols);
    }
  }

  /** A sequence is its first `n` elements followed by the rest. */
  lemma TakeDrop<T>(s: seq<T>, n: nat)
    requires n <= |s|
    ensures s[..n] + s[n..] == s
  {
  }

  /** Entry `(i, j)` of a well-shaped grid sits at offset `i * numCols + j` of its flattening. */
  lemma ConcatRowMajor(rows: seq<seq<int>>, numCols: nat)
    requires Shaped(rows, numCols)
    ensures RowMajor(rows, Concat(rows), numCols)
  {
    forall i, j
      ensures EntryAt(rows, Concat(rows), numCols, i, j)
    {
      if 0 <= i < |rows| && 0 <= j < |rows[i]| {
        ConcatIndex(rows, numCols, i, j);
      }
    }
  }

  /** `_init_from_data`: the data length must match the dimensions, otherwise
      `ValueError`; entry `(row, col)` is `data[row * numCols + col]`, so
      flattening the rows gives back the data. */
  function FromData(numRows: int, numCols: int, data: seq<int>): (r: Result<Matrix>)
    requires numRows > 0 && numCols > 0
    ensures r.Ok? <==> |data| == numRows * numCols
    ensures r.Err? ==> r.error == ValueError
    ensures r.Ok? ==> Valid(r.value) && r.value.numRows == numRows && r.value.numCols == numCols
    ensures r.Ok? ==> RowMajor(r.value.rows, data, numCols)
    ensures r.Ok? ==> Concat(r.value.rows) == data
  {
    if |data| != numRows * numCols then Err(ValueError)
    else
      FlattenChunk(data, numRows, numCols);
      ConcatRowMajor(Chunk(data, numRows, numCols), numCols);
      Ok(Matrix(numRows, numCols, Chunk(data, numRows, numCols)))
  }

  /** `__init__` on the data path: positive dimensions and some data are
      required, otherwise `ValueError`; then `_init_from_data`. */
  function New(numRows: int, numCols: int, data: Option<seq<int>>): (r: Result<Matrix>)
    ensures r.Ok? <==> numRows > 0 && numCols > 0 && data.Some? && |data.value| == numRows * numCols
    ensures r.Err? ==> r.error == ValueError
    ensures r.Ok? ==> Valid(r.value) && r.value.numRows == numRows && r.value.numCols == numCols
    ensures r.Ok? ==> Concat(r.value.rows) == data.value
  {
    if numRows > 0 && numCols > 0 && data.Some? then FromData(numRows, numCols, data.value)
    else Err(ValueError)
  }

  /** Constructing from the flat list of a well-shaped row list gives back
      exactly that matrix: construction and flattening are inverse. */
  lemma NewOfConcat(numRows: int, numCols: int, rows: seq<seq<int>>)
    requires numRows > 0 && numCols > 0 && |rows| == numRows && Shaped(rows, numCols)
    ensures New(numRows, numCols, Some(Concat(rows))) == Ok(Matrix(numRows, numCols, rows))
  {
    ConcatLength(rows, numCols);
    var r := New(numRows, numCols, Some(Concat(rows)));
    ConcatInjective(r.value.rows, rows, numCols);
  }

  /** `getNumRows`. */
  function NumRows(m: Matrix): (n: int)
    requires Valid(m)
    ensures n > 0 && n == |m.rows|
  {
    m.numRows
  }

  /** `getNumCols`. */
  function NumCols(m: Matrix): (n: int)
    requires Valid(m)
    ensures n > 0 && forall r :: 0 <= r < |m.rows| ==> |m.rows[r]| == n
  {
    m.numCols
  }

  /** `__getitem__`: a negative index has the dimension added once; the
      adjusted index must then be in range, otherwise `IndexError`. */
  function Get(m: Matrix, row: int, col: int): (r: Result<int>)
    requires Valid(m)
    ensures r.Ok? <==> -m.numRows <= row < m.numRows && -m.numCols <= col < m.numCols
    ensures r.Err? ==> r.error == IndexError
    ensures 0 <= row < m.numRows && 0 <= col < m.numCols ==> r == Ok(m.rows[row][col])
  {
    var i := if row < 0 then row + m.numRows else row;
    var j := if col < 0 then col + m.numCols else col;
    if !(0 <= i < m.numRows && 0 <= j < m.numCols) then Err(IndexError)
    else Ok(m.rows[i][j])
  }

  /** A negative index names the same entry as the index one dimension higher. */
  lemma NegativeIndexWraps(m: Matrix, row: int, col: int)
    requires Valid(m)
    requires 0 <= row < m.numRows && 0 <= col < m.numCols
    ensures Get(m, row - m.numRows, col) == Get(m, row, col)
    ensures Get(m, row, col - m.numCols) == Get(m, row, col)
    ensures Get(m, row - m.numRows, col - m.numCols) == Get(m, row, col)
  {
  }

  /** An entry of a freshly built matrix is the data item at its row-major offset. */
  lemma GetAfterNew(numRows: int, numCols: int, data: seq<int>, row: int, col: int)
    requires New(numRows, numCols, Some(data)).Ok?
    requires 0 <= row < numRows && 0 <= col < numCols
    ensures 0 <= row * numCols + col < |data|
    ensures Get(New(numRows, numCols, Some(data)).value, row, col) == Ok(data[row * numCols + col])
  {
    var m := New(numRows, numCols, Some(data)).value;
    ConcatIndex(m.rows, numCols, row, col);
  }

  /** Matrices of the same shape with the same entries have the same rows. */
  lemma SameEntries(a: Matrix, b: Matrix)
    requires Valid(a) && Valid(b) && a.numRows == b.numRows && a.numCols == b.numCols
    requires forall i, j :: 0 <= i < a.numRows && 0 <= j < a.numCols ==> a.rows[i][j] == b.rows[i][j]
    ensures a == b
  {
    forall i | 0 <= i < a.numRows
      ensures a.rows[i] == b.rows[i]
    {
      assert forall j :: 0 <= j < a.numCols ==> a.rows[i][j] == b.rows[i][j];
    }
  }

  /** With equal dimensions, the stored rows agree exactly when every entry does. */
  lemma RowsAgree(a: Matrix, b: Matrix)
    requires Valid(a) && Valid(b)
    ensures (a.numRows == b.numRows && a.numCols == b.numCols && a.rows == b.rows) <==>
            (a.numRows == b.numRows && a.numCols == b.numCols &&
             forall i, j :: 0 <= i < a.numRows && 0 <= j < a.numCols ==> a.rows[i][j] == b.rows[i][j])
  {
    if a.numRows == b.numRows && a.numCols == b.numCols &&
       forall i, j :: 0 <= i < a.numRows && 0 <= j < a.numCols ==> a.rows[i][j] == b.rows[i][j] {
      SameEntries(a, b);
    }
  }

  /** `__eq__`: equal dimensions and equal entries. */
  function Equal(a: Matrix, b: Matrix): (eq: bool)
    requires Valid(a) && Valid(b)
    ensures eq <==> a.numRows == b.numRows && a.numCols == b.numCols &&
                    forall i, j :: 0 <= i < a.numRows && 0 <= j < a.numCols ==> a.rows[i][j] == b.rows[i][j]
    ensures eq <==> a == b
  {
    RowsAgree(a, b);
    a.numRows == b.numRows && a.numCols == b.numCols && a.rows == b.rows
  }

  /** Element-wise sums, row by row. */
  function SumRows(a: Matrix, b: Matrix): (s: seq<seq<int>>)
    requires Valid(a) && Valid(b) && a.numRows == b.numRows && a.numCols == b.numCols
    ensures |s| == a.numRows && Shaped(s, a.numCols)
  {
    seq(a.numRows, i requires 0 <= i < a.numRows =>
      seq(a.numCols, j requires 0 <= j < a.numCols => a.rows[i][j] + b.rows[i][j]))
  }

  /** `__add__`: the shapes must agree, otherwise `ValueError`; the result
      has the same shape and holds the entry-wise sums. */
  function Add(a: Matrix, b: Matrix): (r: Result<Matrix>)
    requires Valid(a) && Valid(b)
    ensures r.Ok? <==> a.numRows == b.numRows && a.numCols == b.numCols
    ensures r.Err? ==> r.error == ValueError
    ensures r.Ok? ==> Valid(r.value) && r.value.numRows == a.numRows && r.value.numCols == a.numCols
    ensures r.Ok? ==> forall i, j :: 0 <= i < a.numRows && 0 <= j < a.numCols ==>
                        r.value.rows[i][j] == a.rows[i][j] + b.rows[i][j]
  {
    if a.numRows != b.numRows || a.numCols != b.numCols then Err(ValueError)
    else
      NewOfConcat(a.numRows, a.numCols, SumRows(a, b));
      New(a.numRows, a.numCols, Some(Concat(SumRows(a, b))))
  }

  /** Addition does not depend on the order of its operands. */
  lemma AddCommutes(a: Matrix, b: Matrix)
    requires Valid(a) && Valid(b)
    ensures Add(a, b) == Add(b, a)
  {
    if Add(a, b).Ok? {
      SameEntries(Add(a, b).value, Add(b, a).value);
    }
  }

  /** The columns of `m`, each as a list: the rows of the transpose. */
  function Columns(m: Matrix): (t: seq<seq<int>>)
    requires Valid(m)
    ensures |t| == m.numCols && Shaped(t, m.numRows)
  {
    seq(m.numCols, j requires 0 <= j < m.numCols =>
      seq(m.numRows, i requires 0 <= i < m.numRows => m.rows[i][j]))
  }

  /** `transpose`: the dimensions swap and entry `(i, j)` moves to `(j, i)`. */
  function Transpose(m: Matrix): (t: Matrix)
    requires Valid(m)
    ensures Valid(t) && t.numRows == m.numCols && t.numCols == m.numRows
    ensures forall i, j :: 0 <= i < m.numRows && 0 <= j < m.numCols ==> t.rows[j][i] == m.rows[i][j]
  {
    NewOfConcat(m.numCols, m.numRows, Columns(m));
    New(m.numCols, m.numRows, Some(Concat(Columns(m)))).value
  }

  /** Transposing twice gives back the same matrix. */
  lemma TransposeTwice(m: Matrix)
    requires Valid(m)
    ensures Transpose(Transpose(m)) == m
    ensures Equal(Transpose(Transpose(m)), m)
  {
    var t := Transpose(m);
    var tt := Transpose(t);
    forall i, j | 0 <= i < m.numRows && 0 <= j < m.numCols
      ensures tt.rows[i][j] == m.rows[i][j]
    {
      assert tt.rows[i][j] == t.rows[j][i];
    }
    SameEntries(tt, m);
  }

  /** `sum(a[i][k] * b[k][j] for k in range(n))`, accumulated in loop order. */
  function Dot(a: Matrix, b: Matrix, i: int, j: int, n: int): int
    requires Valid(a) && Valid(b) && a.numCols == b.numRows
    requires 0 <= i < a.numRows && 0 <= j < b.numCols && 0 <= n <= a.numCols
    decreases n
  {
    if n == 0 then 0 else Dot(a, b, i, j, n - 1) + a.rows[i][n - 1] * b.rows[n - 1][j]
  }

  /** Row `i` of `a` times column `j` of `b`, for all `i`, `j`. */
  function ProductRows(a: Matrix, b: Matrix): (p: seq<seq<int>>)
    requires Valid(a) && Valid(b) && a.numCols == b.numRows
    ensures |p| == a.numRows && Shaped(p, b.numCols)
  {
    seq(a.numRows, i requires 0 <= i < a.numRows =>
      seq(b.numCols, j requires 0 <= j < b.numCols => Dot(a, b, i, j, a.numCols)))
  }

  /** `__mul__`: the inner dimensions must agree, otherwise `ValueError`;
      the product is `a.numRows` by `b.numCols`, entry `(i, j)` being the
      sum over `k` of `a[i, k] * b[k, j]`. */
  function Mul(a: Matrix, b: Matrix): (r: Result<Matrix>)
    requires Valid(a) && Valid(b)
    ensures r.Ok? <==> a.numCols == b.numRows
    ensures r.Err? ==> r.error == ValueError
    ensures r.Ok? ==> Valid(r.value) && r.value.numRows == a.numRows && r.value.numCols == b.numCols
    ensures r.Ok? ==> forall i, j :: 0 <= i < a.numRows && 0 <= j < b.numCols ==>
                        r.value.rows[i][j] == Dot(a, b, i, j, a.numCols)
  {
    if a.numCols != b.numRows then Err(ValueError)
    else
      NewOfConcat(a.numRows, b.numCols, ProductRows(a, b));
      New(a.numRows, b.numCols, Some(Concat(ProductRows(a, b))))
  }

  /** Row `i` of `a` times column `j` of `b` equals row `j` of `b`'s
      transpose times column `i` of `a`'s transpose. */
  lemma {:induction false} DotTranspose(a: Matrix, b: Matrix, at: Matrix, bt: Matrix, i: int, j: int, n: int)
    requires Valid(a) && Valid(b) && a.numCols == b.numRows
    requires Valid(at) && at.numRows == a.numCols && at.numCols == a.numRows
    requires Valid(bt) && bt.numRows == b.numCols && bt.numCols == b.numRows
    requires forall p, q :: 0 <= p < a.numRows && 0 <= q < a.numCols ==> at.rows[q][p] == a.rows[p][q]
    requires forall p, q :: 0 <= p < b.numRows && 0 <= q < b.numCols ==> bt.rows[q][p] == b.rows[p][q]
    requires 0 <= i < a.numRows && 0 <= j < b.numCols && 0 <= n <= a.numCols
    ensures Dot(bt, at, j, i, n) == Dot(a, b, i, j, n)
    decreases n
  {
    if n > 0 {
      DotTranspose(a, b, at, bt, i, j, n - 1);
      assert bt.rows[j][n - 1] * at.rows[n - 1][i] == a.rows[i][n - 1] * b.rows[n - 1][j];
    }
  }

  /** The transpose of a product is the product of the transposes, in
      reverse order. */
  lemma MulTranspose(a: Matrix, b: Matrix)
    requires Valid(a) && Valid(b) && a.numCols == b.numRows
    ensures Mul(Transpose(b), Transpose(a)).Ok?
    ensures Mul(Transpose(b), Transpose(a)).value == Transpose(Mul(a, b).value)
  {
    var at, bt := Transpose(a), Transpose(b);
    var x := Mul(bt, at).value;
    var y := Transpose(Mul(a, b).value);
    forall j, i | 0 <= j < b.numCols && 0 <= i < a.numRows
      ensures x.rows[j][i] == y.rows[j][i]
    {
      DotTranspose(a, b, at, bt, i, j, a.numCols);
    }
    SameEntries(x, y);
  }

  /** The dot product distributes over addition of the right operand. */
  lemma {:induction false} DotAdd(a: Matrix, b: Matrix, c: Matrix, s: Matrix, i: int, j: int, n: int)
    requires Valid(a) && Valid(b) && Valid(c) && Valid(s) && a.numCols == b.numRows
    requires c.numRows == b.numRows && c.numCols == b.numCols
    requires s.numRows == b.numRows && s.numCols == b.numCols
    requires forall p, q :: 0 <= p < b.numRows && 0 <= q < b.numCols ==> s.rows[p][q] == b.rows[p][q] + c.rows[p][q]
    requires 0 <= i < a.numRows && 0 <= j < b.numCols && 0 <= n <= a.numCols
    ensures Dot(a, s, i, j, n) == Dot(a, b, i, j, n) + Dot(a, c, i, j, n)
    decreases n
  {
    if n > 0 {
      DotAdd(a, b, c, s, i, j, n - 1);
      assert a.rows[i][n - 1] * s.rows[n - 1][j]
          == a.rows[i][n - 1] * b.rows[n - 1][j] + a.rows[i][n - 1] * c.rows[n - 1][j];
    }
  }

  /** Multiplication distributes over addition: `a * (b + c) == a * b + a * c`. */
  lemma MulDistributesOverAdd(a: Matrix, b: Matrix, c: Matrix)
    requires Valid(a) && Valid(b) && Valid(c)
    requires a.numCols == b.numRows && b.numRows == c.numRows && b.numCols == c.numCols
    ensures Add(b, c).Ok? && Mul(a, Add(b, c).value).Ok?
    ensures Add(Mul(a, b).value, Mul(a, c).value).Ok?
    ensures Mul(a, Add(b, c).value).value == Add(Mul(a, b).value, Mul(a, c).value).value
  {
    var s := Add(b, c).value;
    var x := Mul(a, s).value;
    var y := Add(Mul(a, b).value, Mul(a, c).value).value;
    forall i, j | 0 <= i < a.numRows && 0 <= j < b.numCols
      ensures x.rows[i][j] == y.rows[i][j]
    {
      DotAdd(a, b, c, s, i, j, a.numCols);
    }
    SameEntries(x, y);
  }
}

=== FILE: matrix_text.dfy ===
/** The string form of a matrix (`Matrix.__str__` in `Classes/Matrix.py`).

    Every entry is written in decimal (`str(n)`) and right-justified to
    the width of the widest entry; the entries of a row are separated by
    two spaces and the row is framed by `"|  "` and `"  |"`; rows are
    joined by newlines, with none after the last. The lemmas show that
    the rows line up and that every entry can be read back from the text. */
module MatrixText {
  import opened Outcomes
  import opened Matrices

  // ---------------------------------------------------------------- decimals

  function DigitChar(d: int): (c: char)
    requires 0 <= d < 10
    ensures '0' <= c <= '9'
  {
    (('0' as int) + d) as char
  }

  function DigitValue(c: char): (d: int)
    requires '0' <= c <= '9'
    ensures 0 <= d < 10
  {
    (c as int) - ('0' as int)
  }

  predicate AllDigits(s: string) {
    forall i :: 0 <= i < |s| ==> '0' <= s[i] <= '9'
  }

  /** An optional minus sign followed by at least one digit. */
  predicate IsDecimal(s: string) {
    if |s| > 0 && s[0] == '-' then |s| > 1 && AllDigits(s[1..]) else |s| > 0 && AllDigits(s)
  }

  /** Decimal digits of `n`, most significant first, without leading zeros. */
  function NatToString(n: nat): (s: string)
    ensures |s| >= 1 && AllDigits(s)
    ensures |s| > 1 ==> s[0] != '0'
    decreases n
  {
    if n < 10 then [DigitChar(n)] else NatToString(n / 10) + [DigitChar(n % 10)]
  }

  /** Python's `str` of an integer. */
  function IntToString(n: int): (s: string)
    ensures IsDecimal(s)
    ensures s[0] == '-' <==> n < 0
    ensures NoNewline(s) && s[0] != ' '
  {
    if n < 0 then "-" + NatToString(-n) else NatToString(n)
  }

  function ParseNat(s: string): nat
    requires AllDigits(s)
    decreases |s|
  {
    if |s| == 0 then 0 else ParseNat(s[..|s| - 1]) * 10 + DigitValue(s[|s| - 1])
  }

  /** Python's `int` of a decimal string. */
  function ParseInt(s: string): int
    requires IsDecimal(s)
  {
    if s[0] == '-' then -(ParseNat(s[1..]) as int) else ParseNat(s)
  }

  lemma {:induction false} NatRoundTrip(n: nat)
    ensures ParseNat(NatToString(n)) == n
    decreases n
  {
    if n >= 10 {
      var s := NatToString(n);
      assert s[..|s| - 1] == NatToString(n / 10);
      NatRoundTrip(n / 10);
      assert DigitValue(s[|s| - 1]) == n % 10;
    }
  }

  /** Reading back the decimal form of an integer gives the integer. */
  lemma IntRoundTrip(n: int)
    ensures ParseInt(IntToString(n)) == n
  {
    if n < 0 {
      var digits := NatToString(-n);
      var s := "-" + digits;
      assert IntToString(n) == s;
      assert s[0] == '-' && s[1..] == digits;
      NatRoundTrip(-n);
    } else {
      NatRoundTrip(n);
    }
  }

  // ------------------------------------------------------------ justification

  function Spaces(n: nat): (s: string)
    ensures |s| == n && forall i :: 0 <= i < n ==> s[i] == ' '
  {
    seq(n, _ => ' ')
  }

  /** `f'{s:>{w}}'`: right-justify `s` in a field of `w` characters; a
      string already that long is left as it is. */
  function PadLeft(s: string, w: nat): (r: string)
    ensures |r| == if |s| < w then w else |s|
  {
    if |s| < w then Spaces(w - |s|) + s else s
  }

  /** Justification only prepends spaces: the text itself ends the field. */
  lemma PadLeftContent(s: string, w: nat)
    ensures var r := PadLeft(s, w);
            && r[|r| - |s|..] == s
            && forall i :: 0 <= i < |r| - |s| ==> r[i] == ' '
  {
  }

  /** Drop the leading spaces. */
  function TrimLeft(s: string): (r: string)
    ensures |r| <= |s| && r == s[|s| - |r|..]
    ensures |r| > 0 ==> r[0] != ' '
    decreases |s|
  {
    if |s| > 0 && s[0] == ' ' then TrimLeft(s[1..]) else s
  }

  /** Justification can be undone for a string that does not start with a space. */
  lemma {:induction false} TrimPadLeft(s: string, w: nat)
    requires |s| > 0 && s[0] != ' '
    ensures TrimLeft(PadLeft(s, w)) == s
  {
    var r := PadLeft(s, w);
    var k := |r| - |s|;
    PadLeftContent(s, w);
    assert r[k] == s[0];
    TrimSpaces(r, k);
  }

  lemma {:induction false} TrimSpaces(r: string, k: nat)
    requires k < |r| && r[k] != ' '
    requires forall i :: 0 <= i < k ==> r[i] == ' '
    ensures TrimLeft(r) == r[k..]
    decreases k
  {
    if k > 0 {
      var tail := r[1..];
      assert r[0] == ' ' && tail[k - 1] == r[k];
      assert forall i :: 0 <= i < k - 1 ==> tail[i] == r[i + 1];
      TrimSpaces(tail, k - 1);
      assert tail[k - 1..] == r[k..];
    }
  }

  // ------------------------------------------------------------------ joining

  /** Python's `sep.join(parts)`. */
  function Join(parts: seq<string>, sep: string): string
    decreases |parts|
  {
    if |parts| == 0 then ""
    else if |parts| == 1 then parts[0]
    else parts[0] + sep + Join(parts[1..], sep)
  }

  /** Joining `n` parts of width `w` takes `n * w` characters plus a
      separator between neighbours. */
  lemma {:induction false} JoinLength(parts: seq<string>, sep: string, w: nat)
    requires |parts| >= 1
    requires forall i :: 0 <= i < |parts| ==> |parts[i]| == w
    ensures |Join(parts, sep)| == |parts| * w + (|parts| - 1) * |sep|
    decreases |parts|
  {
    if |parts| > 1 {
      JoinLength(parts[1..], sep, w);
    }
  }

  /** Past the first part and separator, the join continues as the join of the rest. */
  lemma JoinShift(parts: seq<string>, sep: string, q: int, w: nat)
    requires |parts| > 1
    requires 0 <= q && q + w <= |Join(parts[1..], sep)|
    ensures var k := |parts[0]| + |sep|;
            && k + q + w <= |Join(parts, sep)|
            && Join(parts, sep)[k + q .. k + q + w] == Join(parts[1..], sep)[q .. q + w]
  {
    assert Join(parts, sep) == (parts[0] + sep) + Join(parts[1..], sep);
  }

  /** The join starts with its first part. */
  lemma JoinHead(parts: seq<string>, sep: string)
    requires |parts| > 0
    ensures |parts[0]| <= |Join(parts, sep)|
    ensures Join(parts, sep)[..|parts[0]|] == parts[0]
  {
    if |parts| > 1 {
      assert Join(parts, sep) == parts[0] + (sep + Join(parts[1..], sep));
    }
  }

  /** Part `j` of parts of width `w` starts at `p == j * (w + |sep|)` of the join. */
  lemma {:induction false} JoinSlot(parts: seq<string>, sep: string, w: nat, j: int, p: int)
    requires forall i :: 0 <= i < |parts| ==> |parts[i]| == w
    requires 0 <= j < |parts| && p == j * (w + |sep|)
    ensures 0 <= p && p + w <= |Join(parts, sep)|
    ensures Join(parts, sep)[p .. p + w] == parts[j]
    decreases |parts|
  {
    if j == 0 {
      JoinHead(parts, sep);
    } else {
      var k, rest := w + |sep|, parts[1..];
      assert (j - 1) * k == j * k - k;
      assert forall i :: 0 <= i < |rest| ==> rest[i] == parts[i + 1];
      JoinSlot(rest, sep, w, j - 1, p - k);
      JoinShift(parts, sep, p - k, w);
    }
  }

  // ---------------------------------------------------------------- splitting

  /** Python's `s.split('\n')`: the pieces between newlines, at least one. */
  function SplitLines(s: string): (parts: seq<string>)
    ensures |parts| >= 1
    decreases |s|
  {
    if |s| == 0 then [""]
    else
      var rest := SplitLines(s[1..]);
      if s[0] == '\n' then [""] + rest else [[s[0]] + rest[0]] + rest[1..]
  }

  predicate NoNewline(s: string) {
    forall i :: 0 <= i < |s| ==> s[i] != '\n'
  }

  lemma {:induction false} SplitLine(a: string, b: string)
    requires NoNewline(a)
    ensures SplitLines(a + b)[0] == a + SplitLines(b)[0]
    ensures SplitLines(a + b)[1..] == SplitLines(b)[1..]
    decreases |a|
  {
    if |a| > 0 {
      assert (a + b)[1..] == a[1..] + b;
      SplitLine(a[1..], b);
      assert a == [a[0]] + a[1..];
    } else {
      assert a + b == b;
    }
  }

  /** Splitting newline-joined lines gives back the lines. */
  lemma {:induction false} SplitJoin(lines: seq<string>)
    requires |lines| >= 1
    requires forall i :: 0 <= i < |lines| ==> NoNewline(lines[i])
    ensures SplitLines(Join(lines, "\n")) == lines
    decreases |lines|
  {
    if |lines| == 1 {
      SplitLine(lines[0], "");
      assert lines[0] + "" == lines[0];
      assert SplitLines(lines[0]) == [SplitLines(lines[0])[0]] + SplitLines(lines[0])[1..];
    } else {
      var rest := Join(lines[1..], "\n");
      SplitJoin(lines[1..]);
      assert Join(lines, "\n") == lines[0] + ("\n" + rest);
      SplitLine(lines[0], "\n" + rest);
      assert ("\n" + rest)[1..] == rest;
      assert SplitLines("\n" + rest) == [""] + lines[1..];
      var parts := SplitLines(Join(lines, "\n"));
      assert parts[0] == lines[0] + "" == lines[0];
      assert parts[1..] == lines[1..];
      assert parts == [parts[0]] + parts[1..];
      assert lines == [lines[0]] + lines[1..];
    }
  }

  // ---------------------------------------------------------------- rendering

  /** The widest decimal form among `xs` (0 for none): the `sigfigs` loop. */
  function MaxWidth(xs: seq<int>): (w: nat)
    ensures forall x :: x in xs ==> |IntToString(x)| <= w
    ensures |xs| == 0 ==> w == 0
    decreases |xs|
  {
    if |xs| == 0 then 0
    else
      var init, x := xs[..|xs| - 1], xs[|xs| - 1];
      assert xs == init + [x];
      var w0 := MaxWidth(init);
      var last := |IntToString(x)|;
      if last > w0 then last else w0
  }

  /** The field width of every entry of `m`. */
  function Width(m: Matrix): nat
    requires Valid(m)
  {
    MaxWidth(Concat(m.rows))
  }

  /** Every entry fits its field. */
  lemma WidthFits(m: Matrix, i: int, j: int)
    requires Valid(m)
    requires 0 <= i < m.numRows && 0 <= j < m.numCols
    ensures |IntToString(m.rows[i][j])| <= Width(m)
  {
    ConcatIndex(m.rows, m.numCols, i, j);
  }

  /** Some entry fills its field exactly: the width is no larger than needed. */
  lemma WidthAttained(m: Matrix)
    requires Valid(m)
    ensures exists i, j :: 0 <= i < m.numRows && 0 <= j < m.numCols &&
              |IntToString(m.rows[i][j])| == Width(m)
  {
    var flat := Concat(m.rows);
    ConcatLength(m.rows, m.numCols);
    var p := WidestIndex(flat);
    var i, j := p / m.numCols, p % m.numCols;
    SplitOffset(p, m.numRows, m.numCols);
    ConcatIndex(m.rows, m.numCols, i, j);
    assert m.rows[i][j] == flat[p];
  }

  /** A position of `xs` holding a widest entry: the width is attained. */
  lemma {:induction false} WidestIndex(xs: seq<int>) returns (p: int)
    requires |xs| > 0
    ensures 0 <= p < |xs| && |IntToString(xs[p])| == MaxWidth(xs)
    decreases |xs|
  {
    var init := xs[..|xs| - 1];
    if |init| > 0 && MaxWidth(init) >= |IntToString(xs[|xs| - 1])| {
      p := WidestIndex(init);
      assert xs[p] == init[p];
    } else {
      p := |xs| - 1;
    }
  }

  /** The decimal form of every entry of a row. */
  function Texts(row: seq<int>): (texts: seq<string>)
    ensures |texts| == |row|
  {
    seq(|row|, j requires 0 <= j < |row| => IntToString(row[j]))
  }

  /** Every text right-justified to width `w`. */
  function Cells(texts: seq<string>, w: nat): (cells: seq<string>)
    ensures |cells| == |texts|
  {
    seq(|texts|, j requires 0 <= j < |texts| => PadLeft(texts[j], w))
  }

  /** `"|  " + "  ".join(cells) + "  |"`. */
  function Framed(texts: seq<string>, w: nat): string {
    "|  " + Join(Cells(texts, w), "  ") + "  |"
  }

  /** One printed row of the matrix. */
  function RowLine(row: seq<int>, w: nat): string {
    Framed(Texts(row), w)
  }

  function Lines(m: Matrix): (lines: seq<string>)
    requires Valid(m)
    ensures |lines| == m.numRows
  {
    seq(m.numRows, i requires 0 <= i < m.numRows => RowLine(m.rows[i], Width(m)))
  }

  /** `__str__`: the rows joined by newlines. */
  function Render(m: Matrix): (text: string)
    requires Valid(m)
    ensures SplitLines(text) == Lines(m) && |SplitLines(text)| == m.numRows
  {
    LinesSplit(m);
    Join(Lines(m), "\n")
  }

  lemma PadNoNewline(s: string, w: nat)
    requires NoNewline(s)
    ensures NoNewline(PadLeft(s, w))
  {
    var r := PadLeft(s, w);
    PadLeftContent(s, w);
    forall i | 0 <= i < |r|
      ensures r[i] != '\n'
    {
      if i >= |r| - |s| {
        assert r[i] == r[|r| - |s|..][i - (|r| - |s|)];
      }
    }
  }

  lemma {:induction false} JoinNoNewline(parts: seq<string>, sep: string)
    requires NoNewline(sep)
    requires forall i :: 0 <= i < |parts| ==> NoNewline(parts[i])
    ensures NoNewline(Join(parts, sep))
    decreases |parts|
  {
    if |parts| > 1 {
      JoinNoNewline(parts[1..], sep);
    }
  }

  lemma CellsNoNewline(texts: seq<string>, w: nat)
    requires forall j :: 0 <= j < |texts| ==> NoNewline(texts[j])
    ensures forall j :: 0 <= j < |texts| ==> NoNewline(Cells(texts, w)[j])
  {
    forall j | 0 <= j < |texts|
      ensures NoNewline(Cells(texts, w)[j])
    {
      PadNoNewline(texts[j], w);
    }
  }

  /** No printed row holds a newline. */
  lemma RowLineNoNewline(row: seq<int>, w: nat)
    ensures NoNewline(RowLine(row, w))
  {
    var texts := Texts(row);
    var body := Join(Cells(texts, w), "  ");
    CellsNoNewline(texts, w);
    JoinNoNewline(Cells(texts, w), "  ");
    assert NoNewline(body);
    var line := "|  " + body + "  |";
    forall i | 0 <= i < |line|
      ensures line[i] != '\n'
    {
      if 3 <= i < 3 + |body| {
        assert line[i] == body[i - 3];
      }
    }
  }

  /** Joining the printed rows with newlines and splitting again gives the rows back. */
  lemma LinesSplit(m: Matrix)
    requires Valid(m)
    ensures SplitLines(Join(Lines(m), "\n")) == Lines(m)
  {
    var lines := Lines(m);
    forall i | 0 <= i < |lines|
      ensures NoNewline(lines[i])
    {
      RowLineNoNewline(m.rows[i], Width(m));
    }
    SplitJoin(lines);
  }

  /** The frame around a row body shifts every field by three characters. */
  lemma FrameShift(body: string, p: int, w: nat)
    requires 0 <= p && p + w <= |body|
    ensures ("|  " + body + "  |")[3 + p .. 3 + p + w] == body[p .. p + w]
  {
  }

  /** Where field `j` starts on a printed row whose fields are `w` wide:
      after the three-character frame, `j` fields and `j` two-space gaps. */
  function FieldStart(j: nat, w: nat): (start: int)
    ensures start >= 3
  {
    3 + j * (w + 2)
  }

  /** A framed row of texts that fit width `w` is `6 + n * w + 2 * (n - 1)`
      characters long for `n` texts, and carries the frame. */
  lemma FramedLength(texts: seq<string>, w: nat)
    requires forall q :: 0 <= q < |texts| ==> |texts[q]| <= w
    requires |texts| > 0
    ensures var line := Framed(texts, w);
            && |line| == 6 + |texts| * w + 2 * (|texts| - 1)
            && line[..3] == "|  " && line[|line| - 3..] == "  |"
  {
    var cells := Cells(texts, w);
    var sep := "  ";
    assert |sep| == 2;
    assert forall q :: 0 <= q < |cells| ==> |cells[q]| == w;
    JoinLength(cells, sep, w);
  }

  /** Cell `j` of the joined cells starts at `j * (w + 2)`. */
  lemma CellSlot(texts: seq<string>, w: nat, j: int, p: int)
    requires forall q :: 0 <= q < |texts| ==> |texts[q]| <= w
    requires 0 <= j < |texts| && p == j * (w + 2)
    ensures 0 <= p && p + w <= |Join(Cells(texts, w), "  ")|
    ensures Join(Cells(texts, w), "  ")[p .. p + w] == Cells(texts, w)[j]
  {
    var cells := Cells(texts, w);
    assert |"  "| == 2;
    assert forall q :: 0 <= q < |cells| ==> |cells[q]| == w;
    JoinSlot(cells, "  ", w, j, p);
  }

  /** Field `j` of a framed row of texts that fit width `w` holds text `j`
      right-justified. */
  lemma FramedField(texts: seq<string>, w: nat, j: int)
    requires forall q :: 0 <= q < |texts| ==> |texts[q]| <= w
    requires 0 <= j < |texts|
    ensures FieldStart(j, w) + w <= |Framed(texts, w)|
    ensures Framed(texts, w)[FieldStart(j, w) .. FieldStart(j, w) + w] == PadLeft(texts[j], w)
  {
    var p := j * (w + 2);
    CellSlot(texts, w, j, p);
    FrameShift(Join(Cells(texts, w), "  "), p, w);
  }

  /** Every printed row has the same length, fixed by the column count and
      the width, so the columns line up; each row carries the frame. */
  lemma RowLength(m: Matrix, i: int)
    requires Valid(m) && 0 <= i < m.numRows
    ensures var line, w := Lines(m)[i], Width(m);
            && |line| == 6 + m.numCols * w + 2 * (m.numCols - 1)
            && line[..3] == "|  " && line[|line| - 3..] == "  |"
  {
    var texts := Texts(m.rows[i]);
    EntriesFit(m, i);
    assert forall q :: 0 <= q < |texts| ==> texts[q] == IntToString(m.rows[i][q]);
    FramedLength(texts, Width(m));
  }

  /** Field `j` of a printed row whose entries fit width `w` holds entry
      `j` right-justified. */
  lemma RowLineField(row: seq<int>, w: nat, j: int)
    requires forall q :: 0 <= q < |row| ==> |IntToString(row[q])| <= w
    requires 0 <= j < |row|
    ensures FieldStart(j, w) + w <= |RowLine(row, w)|
    ensures RowLine(row, w)[FieldStart(j, w) .. FieldStart(j, w) + w] == PadLeft(IntToString(row[j]), w)
  {
    var texts := Texts(row);
    assert texts[j] == IntToString(row[j]);
    FramedField(texts, w, j);
  }

  /** Printed row `i` is row `i` of the matrix framed at the common width. */
  lemma LineOfRow(m: Matrix, i: int)
    requires Valid(m) && 0 <= i < m.numRows
    ensures Lines(m)[i] == RowLine(m.rows[i], Width(m))
  {
  }

  /** Every entry of row `i` fits the common width. */
  lemma EntriesFit(m: Matrix, i: int)
    requires Valid(m) && 0 <= i < m.numRows
    ensures forall q :: 0 <= q < |m.rows[i]| ==> |IntToString(m.rows[i][q])| <= Width(m)
  {
    forall q | 0 <= q < |m.rows[i]|
      ensures |IntToString(m.rows[i][q])| <= Width(m)
    {
      WidthFits(m, i, q);
    }
  }

  /** Entry `(i, j)` sits right-justified in field `j` of printed row `i`. */
  lemma RowField(m: Matrix, i: int, j: int)
    requires Valid(m)
    requires 0 <= i < m.numRows && 0 <= j < m.numCols
    ensures var line, w := Lines(m)[i], Width(m);
            && FieldStart(j, w) + w <= |line|
            && line[FieldStart(j, w) .. FieldStart(j, w) + w] == PadLeft(IntToString(m.rows[i][j]), w)
  {
    LineOfRow(m, i);
    EntriesFit(m, i);
    RowLineField(m.rows[i], Width(m), j);
  }

  /** Read entry `(i, j)` back from printed text whose fields are `w`
      wide: take line `i`, cut out field `j`, drop the padding and parse
      the number; `None` when the text has no such field. */
  function ReadEntry(text: string, w: nat, i: nat, j: nat): Option<int> {
    var lines := SplitLines(text);
    if i >= |lines| then None
    else
      var start := FieldStart(j, w);
      if start + w > |lines[i]| then None
      else
        var field := TrimLeft(lines[i][start .. start + w]);
        if IsDecimal(field) then Some(ParseInt(field)) else None
  }

  /** Line `i` of `text` exists, and its field `j` holds `x` right-justified to width `w`. */
  ghost predicate FieldHolds(text: string, w: nat, i: nat, j: nat, x: int) {
    var lines := SplitLines(text);
    && i < |lines|
    && FieldStart(j, w) + w <= |lines[i]|
    && lines[i][FieldStart(j, w) .. FieldStart(j, w) + w] == PadLeft(IntToString(x), w)
  }

  /** Field `j` of line `i` of the printed text holds entry `(i, j)` right-justified. */
  lemma RenderField(m: Matrix, i: nat, j: nat)
    requires Valid(m)
    requires i < m.numRows && j < m.numCols
    ensures FieldHolds(Render(m), Width(m), i, j, m.rows[i][j])
  {
    RowField(m, i, j);
  }

  /** A right-justified number, trimmed, parses back to the number. */
  lemma DecodeField(x: int, w: nat)
    ensures IsDecimal(TrimLeft(PadLeft(IntToString(x), w)))
    ensures ParseInt(TrimLeft(PadLeft(IntToString(x), w))) == x
  {
    TrimPadLeft(IntToString(x), w);
    IntRoundTrip(x);
  }

  /** A text whose field `(i, j)` holds `x` right-justified reads back as `x`. */
  lemma ReadEntryOf(text: string, w: nat, i: nat, j: nat, x: int)
    requires FieldHolds(text, w, i, j, x)
    ensures ReadEntry(text, w, i, j) == Some(x)
  {
    DecodeField(x, w);
  }

  /** Every entry can be read back from the printed text. */
  lemma RenderDecodes(m: Matrix, i: nat, j: nat)
    requires Valid(m)
    requires i < m.numRows && j < m.numCols
    ensures ReadEntry(Render(m), Width(m), i, j) == Some(m.rows[i][j])
  {
    RenderField(m, i, j);
    ReadEntryOf(Render(m), Width(m), i, j, m.rows[i][j]);
  }
}

=== FILE: outcomes.dfy ===
/** Failure values shared by the modelled components.

    The Python code signals bad input by raising `ValueError` or
    `IndexError`; here an operation that can raise returns a `Result`
    instead, and `None` stands for Python's `None` argument. */
module Outcomes {

  /** The two exception classes the modelled code raises. */
  datatype Error = ValueError | IndexError

  /** Either the value an operation returns or the exception it raises. */
  datatype Result<T> = Ok(value: T) | Err(error: Error)

  /** An optional argument (`None` or a value). */
  datatype Option<T> = None | Some(value: T)
}

=== FILE: permutation.dfy ===
/**
 * Scrambling a word (Permutation/permutation.py, randomPermutation): draw
 * an unused position, append its character, retire the position, until no
 * position is left. The random draw is a nondeterministic choice, so every
 * property below holds whichever positions are drawn.
 */
module Permutation {
  /** The positions 0 .. n-1. */
  function Positions(n: nat): (ps: set<int>)
    ensures forall t :: t in ps <==> 0 <= t < n
    ensures |ps| == n
  {
    if n == 0 then {}
    else
      var ps := Positions(n - 1) + {n - 1};
      assert Positions(n - 1) !! {n - 1};
      ps
  }

  /** No position occurs twice in `p`. */
  ghost predicate Distinct(p: seq<int>) {
    forall a, b :: 0 <= a < b < |p| ==> p[a] != p[b]
  }

  /**
   * `r` is `word` read in the order `p`: every position of `word` is used
   * exactly once and `r[t]` is the character at the t-th position drawn.
   */
  ghost predicate Rearranges(r: string, word: string, p: seq<int>) {
    |p| == |r| == |word| && Distinct(p)
    && (forall t :: 0 <= t < |p| ==> 0 <= p[t] < |word| && r[t] == word[p[t]])
    && (forall i :: 0 <= i < |word| ==> i in p)
  }

  /** The characters of `word` at the positions in `avail` below `n`. */
  ghost function Remaining(word: string, avail: set<int>, n: nat): multiset<char>
    requires n <= |word|
  {
    if n == 0 then multiset{}
    else if n - 1 in avail then Remaining(word, avail, n - 1) + multiset{word[n - 1]}
    else Remaining(word, avail, n - 1)
  }

  lemma {:induction false} RemainingAll(word: string, n: nat)
    requires n <= |word|
    ensures Remaining(word, Positions(|word|), n) == multiset(word[..n])
  {
    if n > 0 {
      RemainingAll(word, n - 1);
      assert word[..n] == word[..n - 1] + [word[n - 1]];
    }
  }

  lemma {:induction false} RemainingRemove(word: string, avail: set<int>, idx: int, n: nat)
    requires n <= |word| && idx in avail && 0 <= idx < |word|
    ensures idx < n ==> Remaining(word, avail, n) == Remaining(word, avail - {idx}, n) + multiset{word[idx]}
    ensures idx >= n ==> Remaining(word, avail, n) == Remaining(word, avail - {idx}, n)
  {
    if n > 0 {
      RemainingRemove(word, avail, idx, n - 1);
      if n - 1 != idx {
        assert n - 1 in avail <==> n - 1 in avail - {idx};
      }
    }
  }

  lemma {:induction false} RemainingNone(word: string, n: nat)
    requires n <= |word|
    ensures Remaining(word, {}, n) == multiset{}
  {
    if n > 0 {
      RemainingNone(word, n - 1);
    }
  }

  /**
   * The state of the drawing loop: `picked` lists the positions drawn so
   * far, all distinct, `r` holds their characters, `available` holds the
   * positions not drawn yet, and the characters of `r` together with those
   * still available are the characters of `word`.
   */
  ghost predicate Drawn(word: string, available: set<int>, picked: seq<int>, r: string) {
    |r| == |picked| && |available| + |picked| == |word|
    && (forall t :: t in available <==> 0 <= t < |word| && t !in picked)
    && Distinct(picked)
    && (forall t :: 0 <= t < |picked| ==> 0 <= picked[t] < |word| && r[t] == word[picked[t]])
    && multiset(r) + Remaining(word, available, |word|) == multiset(word)
  }

  lemma DrawStart(word: string)
    ensures Drawn(word, Positions(|word|), [], "")
  {
    RemainingAll(word, |word|);
    assert word[..|word|] == word;
  }

  /** Drawing one available position keeps the loop state consistent. */
  lemma DrawStep(word: string, available: set<int>, picked: seq<int>, r: string, idx: int)
    requires Drawn(word, available, picked, r) && idx in available
    ensures Drawn(word, available - {idx}, picked + [idx], r + [word[idx]])
  {
    RemainingRemove(word, available, idx, |word|);
    assert multiset(r + [word[idx]]) == multiset(r) + multiset{word[idx]};
    var next := picked + [idx];
    assert forall t :: 0 <= t < |picked| ==> next[t] == picked[t];
    assert |available - {idx}| == |available| - 1;
  }

  /** When no position is left, every position was drawn exactly once. */
  lemma DrawDone(word: string, picked: seq<int>, r: string)
    requires Drawn(word, {}, picked, r)
    ensures Rearranges(r, word, picked)
    ensures multiset(r) == multiset(word)
  {
    RemainingNone(word, |word|);
  }

  /** randomPermutation, with `random.choice` as an arbitrary pick from the unused positions. */
  method RandomPermutation(word: string) returns (r: string)
    ensures |r| == |word|
    ensures multiset(r) == multiset(word)
    ensures exists p :: Rearranges(r, word, p)
  {
    var available := Positions(|word|);
    r := "";
    ghost var picked: seq<int> := [];
    DrawStart(word);
    while available != {}
      invariant Drawn(word, available, picked, r)
      decreases |available|
    {
      var idx :| idx in available;
      DrawStep(word, available, picked, r, idx);
      r := r + [word[idx]];
      picked := picked + [idx];
      available := available - {idx};
    }
    DrawDone(word, picked, r);
  }

  /** A word read in any order that uses each position once has the same characters. */
  lemma RearrangedSameLetters(r: string, word: string, p: seq<int>)
    requires Rearranges(r, word, p)
    ensures multiset(r) == multiset(word)
  {
    var available := Positions(|word|);
    DrawStart(word);
    var t := 0;
    while t < |p|
      invariant 0 <= t <= |p|
      invariant Drawn(word, available, p[..t], r[..t])
    {
      assert p[t] !in p[..t];
      DrawStep(word, available, p[..t], r[..t], p[t]);
      assert p[..t + 1] == p[..t] + [p[t]];
      assert r[..t + 1] == r[..t] + [word[p[t]]];
      available := available - {p[t]};
      t := t + 1;
    }
    assert p[..t] == p && r[..t] == r;
    assert available == {};
    DrawDone(word, p, r);
  }
}

=== FILE: stats.dfy ===
/**
 * The summary statistics of a list of integers (Debugging/debug.py,
 * computeStats): one pass that keeps the running sum, maximum and minimum.
 */
module Stats {
  /** The `sum`, `max` and `min` entries of the result dictionary. */
  datatype Summary = Summary(sum: int, max: int, min: int)

  /** The total of `xs`, added up from the left as the loop does. */
  function Sum(xs: seq<int>): int {
    if |xs| == 0 then 0 else Sum(xs[..|xs| - 1]) + xs[|xs| - 1]
  }

  /** Adding the next entry extends the running total. */
  lemma SumStep(xs: seq<int>, i: int)
    requires 0 <= i < |xs|
    ensures Sum(xs[..i + 1]) == Sum(xs[..i]) + xs[i]
  {
    assert xs[..i + 1][..i] == xs[..i];
  }

  /** computeStats: all zero for an empty list, otherwise the total and the extremes. */
  method ComputeStats(xs: seq<int>) returns (st: Summary)
    ensures |xs| == 0 ==> st == Summary(0, 0, 0)
    ensures |xs| > 0 ==> st.sum == Sum(xs)
    ensures |xs| > 0 ==> st.max in xs && forall x :: x in xs ==> x <= st.max
    ensures |xs| > 0 ==> st.min in xs && forall x :: x in xs ==> st.min <= x
  {
    if |xs| == 0 {
      return Summary(0, 0, 0);
    }
    var sum, max, min := xs[0], xs[0], xs[0];
    ghost var top, bottom := 0, 0;
    assert xs[..1] == [xs[0]];
    for i := 1 to |xs|
      invariant sum == Sum(xs[..i])
      invariant 0 <= top < i && max == xs[top] && forall t :: 0 <= t < i ==> xs[t] <= max
      invariant 0 <= bottom < i && min == xs[bottom] && forall t :: 0 <= t < i ==> min <= xs[t]
    {
      var value := xs[i];
      SumStep(xs, i);
      sum := sum + value;
      if value > max {
        max, top := value, i;
      }
      if value < min {
        min, bottom := value, i;
      }
    }
    assert xs[..|xs|] == xs;
    return Summary(sum, max, min);
  }

  /** The total lies between |xs| times any lower bound and |xs| times any upper bound. */
  lemma {:induction false} SumBetweenBounds(xs: seq<int>, lo: int, hi: int)
    requires forall x :: x in xs ==> lo <= x <= hi
    ensures |xs| * lo <= Sum(xs) <= |xs| * hi
    decreases |xs|
  {
    if |xs| > 0 {
      var front := xs[..|xs| - 1];
      assert forall x :: x in front ==> x in xs;
      assert xs[|xs| - 1] in xs;
      SumBetweenBounds(front, lo, hi);
      assert |xs| * lo == |front| * lo + lo;
      assert |xs| * hi == |front| * hi + hi;
    }
  }
}

=== FILE: tag_matching.dfy ===
/**
 * The stack-based matcher of the HTML checker (Stack/Stack.py, parseHTML).
 *
 * Tags become tokens: void elements are dropped, a tag starting with `/`
 * closes the name after the slash, any other tag opens itself. The stack
 * is a sequence whose last element is the top. The central result is that
 * the matcher accepts exactly the well-nested token sequences (`Balanced`),
 * and that after any prefix the stack holds the still-open tags in order.
 */
module TagBalance {
  import opened Outcomes
  import opened HtmlTags

  /** The void elements the matcher skips. */
  const VoidTags: set<string> :=
    {"area", "base", "br", "col", "embed", "hr", "img", "input", "keygen",
     "link", "meta", "param", "source", "track", "wbr"}

  datatype Token = Open(name: string) | Close(name: string)

  function TokenOf(tag: string): (t: Token)
    ensures t.Close? <==> |tag| > 0 && tag[0] == '/'
    ensures t.Close? ==> tag == "/" + t.name
    ensures t.Open? ==> tag == t.name
  {
    if |tag| > 0 && tag[0] == '/' then
      assert tag == "/" + tag[1..];
      Close(tag[1..])
    else Open(tag)
  }

  /** The tokens of a tag list: one per non-void tag, in order. */
  function Tokens(tags: seq<string>): (ts: seq<Token>)
    ensures |ts| <= |tags|
  {
    if |tags| == 0 then []
    else if tags[0] in VoidTags then Tokens(tags[1..])
    else [TokenOf(tags[0])] + Tokens(tags[1..])
  }

  /** One iteration of the matcher's loop; None is `return False`. */
  function Step(t: Token, stack: seq<string>): Option<seq<string>> {
    match t
    case Open(n) => Some(stack + [n])
    case Close(n) =>
      if |stack| == 0 || stack[|stack| - 1] != n then None
      else Some(stack[..|stack| - 1])
  }

  /** The matcher's loop run over `ts` from `stack`: the final stack, or None once it has returned False. */
  function Exec(ts: seq<Token>, stack: seq<string>): Option<seq<string>>
    decreases |ts|
  {
    if |ts| == 0 then Some(stack)
    else
      match Step(ts[0], stack)
      case None => None
      case Some(next) => Exec(ts[1..], next)
  }

  function Then(o: Option<seq<string>>, ts: seq<Token>): Option<seq<string>> {
    match o
    case None => None
    case Some(stack) => Exec(ts, stack)
  }

  /** Running two token sequences one after the other. */
  lemma {:induction false} ExecAppend(a: seq<Token>, b: seq<Token>, stack: seq<string>)
    ensures Exec(a + b, stack) == Then(Exec(a, stack), b)
    decreases |a|
  {
    if |a| == 0 {
      assert a + b == b;
    } else {
      assert (a + b)[0] == a[0] && (a + b)[1..] == a[1..] + b;
      match Step(a[0], stack)
      case None =>
      case Some(next) => ExecAppend(a[1..], b, next);
    }
  }

  lemma ExecOne(t: Token, stack: seq<string>)
    ensures Exec([t], stack) == Step(t, stack)
  {
    assert [t][1..] == [];
  }

  lemma {:induction false} TokensAppend(a: seq<string>, b: seq<string>)
    ensures Tokens(a + b) == Tokens(a) + Tokens(b)
    decreases |a|
  {
    if |a| == 0 {
      assert a + b == b;
    } else {
      assert (a + b)[0] == a[0] && (a + b)[1..] == a[1..] + b;
      TokensAppend(a[1..], b);
    }
  }

  /**
   * Well-nested token sequences: empty, or an opening tag, a well-nested
   * body, the matching closing tag and a well-nested remainder.
   */
  ghost predicate Balanced(ts: seq<Token>)
    decreases |ts|, 1
  {
    |ts| == 0 || exists k :: MatchedAt(ts, k)
  }

  /** `ts[0]` opens a tag that `ts[k]` closes, with well-nested text inside and after. */
  ghost predicate MatchedAt(ts: seq<Token>, k: int)
    decreases |ts|, 0
  {
    0 < k < |ts| && ts[0].Open? && ts[k] == Close(ts[0].name)
    && Balanced(ts[1..k]) && Balanced(ts[k + 1..])
  }

  /**
   * `p` leaves exactly the tags of `stack` open, oldest first: it is a
   * well-nested text with the opening tags of `stack` interleaved.
   */
  ghost predicate Opens(stack: seq<string>, p: seq<Token>)
    decreases |stack|, 1
  {
    if |stack| == 0 then Balanced(p) else exists k :: OpenedAt(stack, p, k)
  }

  /** `p[k]` opens the top of `stack`, and nothing after it stays open. */
  ghost predicate OpenedAt(stack: seq<string>, p: seq<Token>, k: int)
    decreases |stack|, 0
  {
    |stack| > 0 && 0 <= k < |p| && p[k] == Open(stack[|stack| - 1])
    && Opens(stack[..|stack| - 1], p[..k]) && Balanced(p[k + 1..])
  }

  /** A well-nested sequence leaves any stack as it found it. */
  lemma {:induction false} BalancedRuns(ts: seq<Token>, stack: seq<string>)
    requires Balanced(ts)
    ensures Exec(ts, stack) == Some(stack)
    decreases |ts|
  {
    if |ts| > 0 {
      var k :| MatchedAt(ts, k);
      var n := ts[0].name;
      var inner, after := ts[1..k], ts[k + 1..];
      assert ts[1..] == inner + ([Close(n)] + after);
      ExecAppend(inner, [Close(n)] + after, stack + [n]);
      BalancedRuns(inner, stack + [n]);
      assert (stack + [n])[..|stack|] == stack;
      assert ([Close(n)] + after)[1..] == after;
      BalancedRuns(after, stack);
    }
  }

  lemma {:induction false} BalancedConcat(a: seq<Token>, b: seq<Token>)
    requires Balanced(a) && Balanced(b)
    ensures Balanced(a + b)
    decreases |a|
  {
    if |a| == 0 {
      assert a + b == b;
    } else {
      var k :| MatchedAt(a, k);
      BalancedConcat(a[k + 1..], b);
      assert (a + b)[1..k] == a[1..k];
      assert (a + b)[k + 1..] == a[k + 1..] + b;
      assert MatchedAt(a + b, k);
    }
  }

  lemma OpensExtend(stack: seq<string>, p: seq<Token>, b: seq<Token>)
    requires Opens(stack, p) && Balanced(b)
    ensures Opens(stack, p + b)
  {
    if |stack| == 0 {
      BalancedConcat(p, b);
    } else {
      var k :| OpenedAt(stack, p, k);
      assert (p + b)[..k] == p[..k];
      assert (p + b)[k + 1..] == p[k + 1..] + b;
      BalancedConcat(p[k + 1..], b);
      assert OpenedAt(stack, p + b, k);
    }
  }

  /** An opening tag after `p` leaves its name open on top of what `p` leaves open. */
  lemma OpenPushes(below: seq<string>, front: seq<Token>, n: string)
    requires Opens(below, front)
    ensures Opens(below + [n], front + [Open(n)])
  {
    var stack, p := below + [n], front + [Open(n)];
    assert stack[..|stack| - 1] == below;
    assert p[..|p| - 1] == front && p[|p|..] == [];
    assert OpenedAt(stack, p, |p| - 1);
  }

  /** A closing tag for the newest open name after `front` closes it. */
  lemma ClosePops(stack: seq<string>, front: seq<Token>, n: string)
    requires Opens(stack + [n], front)
    ensures Opens(stack, front + [Close(n)])
  {
    var before, p := stack + [n], front + [Close(n)];
    assert before[..|before| - 1] == stack;
    var k :| OpenedAt(before, front, k);
    var block := p[k..];
    assert block[1..|block| - 1] == front[k + 1..] && block[|block|..] == [];
    assert MatchedAt(block, |block| - 1);
    assert p == front[..k] + block;
    OpensExtend(stack, front[..k], block);
  }

  /** After any prefix the matcher has not rejected, the stack holds exactly the tags that prefix leaves open. */
  lemma {:induction false} StackHoldsOpenTags(p: seq<Token>, stack: seq<string>)
    requires Exec(p, []) == Some(stack)
    ensures Opens(stack, p)
    decreases |p|
  {
    if |p| == 0 {
      assert Balanced(p);
    } else {
      var front, t := p[..|p| - 1], p[|p| - 1];
      assert p == front + [t];
      ExecAppend(front, [t], []);
      var before := Exec(front, []).value;
      ExecOne(t, before);
      StackHoldsOpenTags(front, before);
      match t
      case Open(n) =>
        OpenPushes(before, front, n);
      case Close(n) =>
        assert before == stack + [n];
        ClosePops(stack, front, n);
    }
  }

  /** Conversely, a prefix that leaves the tags of `stack` open drives the matcher to exactly that stack. */
  lemma {:induction false} OpenTagsStack(stack: seq<string>, p: seq<Token>)
    requires Opens(stack, p)
    ensures Exec(p, []) == Some(stack)
    decreases |stack|
  {
    if |stack| == 0 {
      BalancedRuns(p, []);
    } else {
      var k :| OpenedAt(stack, p, k);
      var below, top := stack[..|stack| - 1], stack[|stack| - 1];
      OpenTagsStack(below, p[..k]);
      assert p == p[..k] + ([Open(top)] + p[k + 1..]);
      ExecAppend(p[..k], [Open(top)] + p[k + 1..], []);
      assert ([Open(top)] + p[k + 1..])[1..] == p[k + 1..];
      assert below + [top] == stack;
      BalancedRuns(p[k + 1..], stack);
    }
  }

  /** The matcher ends with an empty stack exactly on well-nested input. */
  lemma AcceptsBalanced(ts: seq<Token>)
    ensures Exec(ts, []) == Some([]) <==> Balanced(ts)
  {
    if Exec(ts, []) == Some([]) {
      StackHoldsOpenTags(ts, []);
    }
    if Balanced(ts) {
      BalancedRuns(ts, []);
    }
  }

  /** Once the matcher has returned False, no continuation of the input is well nested. */
  lemma RejectionIsFinal(p: seq<Token>, rest: seq<Token>)
    requires Exec(p, []) == None
    ensures !Balanced(p + rest)
  {
    ExecAppend(p, rest, []);
    AcceptsBalanced(p + rest);
  }

  /**
   * A closing tag that meets an empty stack, or a stack whose top is a
   * different name, makes the whole input ill nested.
   */
  lemma UnmatchedCloseRejects(p: seq<Token>, stack: seq<string>, n: string, rest: seq<Token>)
    requires Exec(p, []) == Some(stack)
    requires |stack| == 0 || stack[|stack| - 1] != n
    ensures !Balanced(p + [Close(n)] + rest)
  {
    ExecAppend(p, [Close(n)], []);
    RejectionIsFinal(p + [Close(n)], rest);
  }

  /** Tags left open at the end make the input ill nested. */
  lemma LeftoverRejects(ts: seq<Token>, stack: seq<string>)
    requires Exec(ts, []) == Some(stack) && |stack| > 0
    ensures !Balanced(ts)
  {
    AcceptsBalanced(ts);
  }

  /** A void element anywhere in the tag list changes nothing. */
  lemma VoidTagsIgnored(a: seq<string>, v: string, b: seq<string>)
    requires v in VoidTags
    ensures Tokens(a + [v] + b) == Tokens(a + b)
  {
    TokensAppend(a, [v] + b);
    TokensAppend(a, b);
    assert a + [v] + b == a + ([v] + b);
    assert ([v] + b)[1..] == b;
  }

  /** One tag's effect on the stack: void elements are skipped. */
  function TagStep(tag: string, stack: seq<string>): Option<seq<string>> {
    if tag in VoidTags then Some(stack) else Step(TokenOf(tag), stack)
  }

  /** Running the tags up to and including `tags[i]` is one more step after the tags before it. */
  lemma PrefixStep(tags: seq<string>, i: int, stack: seq<string>)
    requires 0 <= i < |tags| && Exec(Tokens(tags[..i]), []) == Some(stack)
    ensures Exec(Tokens(tags[..i + 1]), []) == TagStep(tags[i], stack)
  {
    var tag := tags[i];
    assert tags[..i + 1] == tags[..i] + [tag];
    assert [tag][1..] == [];
    TokensAppend(tags[..i], [tag]);
    ExecAppend(Tokens(tags[..i]), Tokens([tag]), []);
    if tag !in VoidTags {
      assert Tokens([tag]) == [TokenOf(tag)];
      ExecOne(TokenOf(tag), stack);
    }
  }

  lemma Rejoin<T>(s: seq<T>, n: int)
    requires 0 <= n <= |s|
    ensures s[..n] + s[n..] == s
  {
  }

  /** Tags rejected by the matcher stay rejected whatever follows them. */
  lemma RejectExtends(done: seq<string>, rest: seq<string>)
    requires Exec(Tokens(done), []) == None
    ensures Exec(Tokens(done + rest), []) == None
  {
    TokensAppend(done, rest);
    ExecAppend(Tokens(done), Tokens(rest), []);
  }

  /** A prefix the matcher rejects makes it reject the whole tag list. */
  lemma PrefixRejects(tags: seq<string>, i: int)
    requires 0 <= i < |tags| && Exec(Tokens(tags[..i + 1]), []) == None
    ensures Exec(Tokens(tags), []) == None
  {
    RejectExtends(tags[..i + 1], tags[i + 1..]);
    Rejoin(tags, i + 1);
  }

  /** parseHTML's loop over an already extracted tag list. */
  method ParseTags(tags: seq<string>) returns (ok: bool)
    ensures ok <==> Balanced(Tokens(tags))
  {
    var stack: seq<string> := [];
    for i := 0 to |tags|
      invariant Exec(Tokens(tags[..i]), []) == Some(stack)
    {
      var tag := tags[i];
      PrefixStep(tags, i, stack);
      if tag in VoidTags {
      } else if !(|tag| > 0 && tag[0] == '/') {
        stack := stack + [tag];
      } else {
        var name := tag[1..];
        if |stack| == 0 {
          PrefixRejects(tags, i);
          AcceptsBalanced(Tokens(tags));
          return false;
        }
        var last := stack[|stack| - 1];
        stack := stack[..|stack| - 1];
        if last != name {
          PrefixRejects(tags, i);
          AcceptsBalanced(Tokens(tags));
          return false;
        }
      }
    }
    assert tags[..|tags|] == tags;
    AcceptsBalanced(Tokens(tags));
    ok := |stack| == 0;
  }

  /** parseHTML: IndexError from the scanner, otherwise whether the tags are well nested. */
  method ParseHtml(text: string) returns (r: Result<bool>)
    ensures r.Err? <==> ExtractTags(text).Err?
    ensures r.Err? ==> r.error == IndexError
    ensures r.Ok? ==> (r.value <==> Balanced(Tokens(ExtractTags(text).value)))
  {
    var tags := ExtractTags(text);
    if tags.Err? {
      return Err(tags.error);
    }
    var ok := ParseTags(tags.value);
    return Ok(ok);
  }
}

=== FILE: two_sum.dfy ===
/**
 * Three ways to decide whether two entries at distinct positions of a list
 * sum to k (Hashing/hashing.py): a quadratic scan, a set of the values seen
 * so far, and a boolean list indexed by value.
 */
module TwoSum {
  import opened Outcomes

  /** Two entries at positions i < j sum to k. */
  ghost predicate HasPairSum(s: seq<int>, k: int) {
    exists i, j :: 0 <= i < j < |s| && s[i] + s[j] == k
  }

  /** findOperandsList1: every pair i < j, in order. */
  method FindOperandsList1(s: seq<int>, k: int) returns (found: bool)
    ensures found <==> HasPairSum(s, k)
  {
    for i := 0 to |s|
      invariant forall a, b :: 0 <= a < i && a < b < |s| ==> s[a] + s[b] != k
    {
      for j := i + 1 to |s|
        invariant forall b :: i < b < j ==> s[i] + s[b] != k
      {
        if s[i] + s[j] == k {
          return true;
        }
      }
    }
    return false;
  }

  /** findOperandsDict: `seen` holds the values of the entries already passed. */
  method FindOperandsDict(s: seq<int>, k: int) returns (found: bool)
    ensures found <==> HasPairSum(s, k)
  {
    var seen: set<int> := {};
    for i := 0 to |s|
      invariant forall v :: v in seen <==> exists t :: 0 <= t < i && s[t] == v
      invariant forall a, b :: 0 <= a < b < i ==> s[a] + s[b] != k
    {
      if k - s[i] in seen {
        ghost var t :| 0 <= t < i && s[t] == k - s[i];
        return true;
      }
      seen := seen + {s[i]};
    }
    return false;
  }

  /**
   * What findOperandsList2 answers: `seen[v]` is also set by an entry
   * v - (k+1) through Python's negative indexing, so a later entry w with
   * 0 <= w <= k hits on an earlier partner summing to k or to -1.
   */
  ghost predicate ListTwoHit(s: seq<int>, k: int) {
    exists i, j :: 0 <= i < j < |s| && 0 <= s[j] <= k && (s[i] + s[j] == k || s[i] + s[j] == -1)
  }

  /** The position of the first entry below -(k+1), where `seen[num] = True` raises IndexError. */
  function FirstBad(s: seq<int>, k: int): (b: nat)
    ensures b <= |s| && (b < |s| ==> s[b] < -(k + 1))
    ensures forall t :: 0 <= t < b ==> s[t] >= -(k + 1)
  {
    if |s| == 0 || s[0] < -(k + 1) then 0 else 1 + FirstBad(s[1..], k)
  }

  /** Entry `s[t]` has set `seen[v]`: directly, or as the negative index v - (k+1). */
  ghost predicate Marks(s: seq<int>, t: int, v: int, k: int)
    requires 0 <= t < |s|
  {
    s[t] == v || s[t] == v - (k + 1)
  }

  /** `seen` after the entries before position `i`: flag v is set exactly when one of them marks it. */
  ghost predicate Flags(s: seq<int>, k: int, seen: seq<bool>, i: int) {
    0 <= i <= |s| && |seen| == k + 1
    && forall v :: 0 <= v <= k ==> (seen[v] <==> exists t :: 0 <= t < i && Marks(s, t, v, k))
  }

  /** `seen[num] = True` for an entry that does not raise: a negative `num` counts from the end. */
  function Store(seen: seq<bool>, num: int, k: int): (r: seq<bool>)
    requires |seen| == k + 1 && -(k + 1) <= num
    ensures |r| == k + 1
  {
    if num > k then seen
    else if num >= 0 then seen[num := true]
    else seen[num + k + 1 := true]
  }

  lemma FlagsStart(s: seq<int>, k: int)
    requires k >= 0
    ensures Flags(s, k, seq(k + 1, _ => false), 0)
  {
  }

  /** Storing entry `i` records exactly the flags it marks. */
  lemma FlagsStep(s: seq<int>, k: int, seen: seq<bool>, i: int)
    requires Flags(s, k, seen, i) && i < |s| && -(k + 1) <= s[i]
    ensures Flags(s, k, Store(seen, s[i], k), i + 1)
  {
    var next := Store(seen, s[i], k);
    forall v | 0 <= v <= k
      ensures next[v] <==> exists t :: 0 <= t < i + 1 && Marks(s, t, v, k)
    {
      if Marks(s, i, v, k) {
        assert next[v];
      }
    }
  }

  /** A set partner flag for entry `i` is a hit within the prefix the scan reaches. */
  lemma FlagsHit(s: seq<int>, k: int, seen: seq<bool>, i: int)
    requires Flags(s, k, seen, i) && i < |s| && i <= FirstBad(s, k)
    requires 0 <= k - s[i] <= k && seen[k - s[i]]
    ensures ListTwoHit(s[..FirstBad(s, k)], k)
  {
    var b := FirstBad(s, k);
    var t :| 0 <= t < i && Marks(s, t, k - s[i], k);
    assert s[..b][t] == s[t] && s[..b][i] == s[i];
  }

  /** Without a set partner flag, entry `i` adds no hit. */
  lemma FlagsMiss(s: seq<int>, k: int, seen: seq<bool>, i: int)
    requires Flags(s, k, seen, i) && i < |s| && !ListTwoHit(s[..i], k)
    requires !(0 <= k - s[i] <= k && seen[k - s[i]])
    ensures !ListTwoHit(s[..i + 1], k)
  {
    var p := s[..i + 1];
    forall a, c | 0 <= a < c < i + 1 && 0 <= p[c] <= k
      ensures p[a] + p[c] != k && p[a] + p[c] != -1
    {
      if c < i {
        assert s[..i][a] == s[a] && s[..i][c] == s[c];
      } else {
        assert !Marks(s, a, k - s[i], k);
      }
    }
  }

  /** What findOperandsList2 returns for k >= 0: True on a hit before the
      first entry below -(k+1), IndexError at that entry, False otherwise. */
  ghost function ListTwoOutcome(s: seq<int>, k: int): Result<bool> {
    var b := FirstBad(s, k);
    if ListTwoHit(s[..b], k) then Ok(true)
    else if b < |s| then Err(IndexError)
    else Ok(false)
  }

  /** The scan from position `i` on, with flags `seen`, step by step as the loop runs. */
  function Scan(s: seq<int>, k: int, seen: seq<bool>, i: int): Result<bool>
    requires |seen| == k + 1 && 0 <= i <= |s|
    decreases |s| - i
  {
    if i == |s| then Ok(false)
    else
      var num := s[i];
      if 0 <= k - num <= k && seen[k - num] then Ok(true)
      else if num < -(k + 1) then Err(IndexError)
      else Scan(s, k, Store(seen, num, k), i + 1)
  }

  /** From any state the loop can reach, the rest of the scan yields the outcome. */
  lemma {:induction false} ScanOutcome(s: seq<int>, k: int, seen: seq<bool>, i: int)
    requires k >= 0 && Flags(s, k, seen, i) && i <= FirstBad(s, k) && !ListTwoHit(s[..i], k)
    ensures Scan(s, k, seen, i) == ListTwoOutcome(s, k)
    decreases |s| - i
  {
    var b := FirstBad(s, k);
    if i == |s| {
      assert s[..b] == s[..i];
    } else if 0 <= k - s[i] <= k && seen[k - s[i]] {
      FlagsHit(s, k, seen, i);
    } else if s[i] < -(k + 1) {
      FlagsMiss(s, k, seen, i);
      assert s[..b] == s[..i];
    } else {
      FlagsMiss(s, k, seen, i);
      FlagsStep(s, k, seen, i);
      ScanOutcome(s, k, Store(seen, s[i], k), i + 1);
    }
  }

  /** The scan from the start, with every flag clear, yields the outcome. */
  lemma ScanFromStart(s: seq<int>, k: int)
    requires k >= 0
    ensures Scan(s, k, seq(k + 1, _ => false), 0) == ListTwoOutcome(s, k)
  {
    FlagsStart(s, k);
    assert s[..0] == [];
    ScanOutcome(s, k, seq(k + 1, _ => false), 0);
  }

  /** findOperandsList2: ValueError for negative k, then a scan with a list of k+1 flags. */
  method FindOperandsList2(s: seq<int>, k: int) returns (r: Result<bool>)
    ensures r == Err(ValueError) <==> k < 0
    ensures k >= 0 ==> r == ListTwoOutcome(s, k)
  {
    if k < 0 {
      return Err(ValueError);
    }
    var seen := seq(k + 1, _ => false);
    ScanFromStart(s, k);
    ghost var outcome := Scan(s, k, seen, 0);
    for i := 0 to |s|
      invariant |seen| == k + 1
      invariant Scan(s, k, seen, i) == outcome
    {
      var num := s[i];
      if 0 <= k - num <= k && seen[k - num] {
        return Ok(true);
      }
      if num <= k {
        if num >= 0 {
          seen := seen[num := true];
        } else if num >= -(k + 1) {
          seen := seen[num + k + 1 := true];
        } else {
          return Err(IndexError);
        }
      }
    }
    return Ok(false);
  }

  /** On non-negative entries the flag list answers the two-sum question. */
  lemma ListTwoHitIsPairSum(s: seq<int>, k: int)
    requires k >= 0 && forall t :: 0 <= t < |s| ==> s[t] >= 0
    ensures FirstBad(s, k) == |s|
    ensures ListTwoHit(s, k) <==> HasPairSum(s, k)
  {
    if HasPairSum(s, k) {
      var i, j :| 0 <= i < j < |s| && s[i] + s[j] == k;
      assert 0 <= s[j] <= k;
    }
  }

  /**
   * A negative entry makes the flag list answer True where no pair sums
   * to k: with k = 5, the entry -1 sets `seen[5]`, which the entry 0 reads.
   */
  lemma NegativeEntryAliases()
    ensures ListTwoHit([-1, 0], 5) && !HasPairSum([-1, 0], 5)
  {
    var s := [-1, 0];
    assert 0 <= s[1] <= 5 && s[0] + s[1] == -1;
  }

  /** The three decision procedures agree on non-negative lists and k. */
  method AgreeOnNaturals(s: seq<int>, k: int) returns (a: bool, b: bool, c: Result<bool>)
    requires k >= 0 && forall t :: 0 <= t < |s| ==> s[t] >= 0
    ensures c.Ok? && a == b == c.value
  {
    a := FindOperandsList1(s, k);
    b := FindOperandsDict(s, k);
    c := FindOperandsList2(s, k);
    ListTwoHitIsPairSum(s, k);
    assert s[..|s|] == s;
  }

  /** One entry never pairs with itself; two equal entries may. */
  lemma PairsNeedTwoPositions()
    ensures !HasPairSum([5], 10)
    ensures HasPairSum([5, 5], 10)
    ensures HasPairSum([1, 2, 3, 4], 5)
    ensures !HasPairSum([1, 2], 4)
  {
    var s := [5, 5];
    assert s[0] + s[1] == 10;
    var u := [1, 2, 3, 4];
    assert u[0] + u[3] == 5;
  }

  /** The flag list's outcomes on the three test inputs. */
  lemma ListTwoTests()
    ensures ListTwoOutcome([1, 2, 3, 4], 5) == Ok(true)
    ensures ListTwoOutcome([1, 2], 4) == Ok(false)
    ensures ListTwoOutcome([5, 5], 10) == Ok(true)
  {
    ListTwoHitAt([1, 2, 3, 4], 5, 1, 2);
    ListTwoHitAt([5, 5], 10, 0, 1);
    var b := [1, 2];
    ListTwoHitIsPairSum(b, 4);
    assert b[..|b|] == b;
  }

  /** A pair i < j of the natural list that sums to k is a hit of the flag list. */
  lemma ListTwoHitAt(s: seq<int>, k: int, i: int, j: int)
    requires k >= 0 && forall t :: 0 <= t < |s| ==> s[t] >= 0
    requires 0 <= i < j < |s| && s[i] + s[j] == k
    ensures ListTwoOutcome(s, k) == Ok(true)
  {
    ListTwoHitIsPairSum(s, k);
    assert s[..|s|] == s;
  }

  /** The test calls of the source's `main`: each procedure on the same three inputs. */
  method TestCalls() returns (list1: seq<bool>, dict: seq<bool>, list2: seq<Result<bool>>)
    ensures list1 == [true, false, true]
    ensures dict == [true, false, true]
    ensures list2 == [Ok(true), Ok(false), Ok(true)]
  {
    var a, b, c := [1, 2, 3, 4], [1, 2], [5, 5];
    PairsNeedTwoPositions();
    var a1 := FindOperandsList1(a, 5);
    var b1 := FindOperandsList1(b, 4);
    var c1 := FindOperandsList1(c, 10);
    list1 := [a1, b1, c1];
    var a2 := FindOperandsDict(a, 5);
    var b2 := FindOperandsDict(b, 4);
    var c2 := FindOperandsDict(c, 10);
    dict := [a2, b2, c2];
    ListTwoTests();
    var a3 := FindOperandsList2(a, 5);
    var b3 := FindOperandsList2(b, 4);
    var c3 := FindOperandsList2(c, 10);
    list2 := [a3, b3, c3];
  }
}
